=== FILE: README.md ===
# Placement portal core, modelled in Dafny

The portal is a Flask application where students register, apply for placements, upload resumes for review and take quizzes, and where admins manage applications. This project models the parts of it that carry real logic. All of them are pure functions over immutable data:

- **Account and application rules** (`enhancements/routes.py`). The SQLite tables are in-memory record sequences held in a `Store`. Each route is a transition that returns what the user is told and the store it leaves. The modelled routes are:
  - `register`
  - `apply`
  - `update_status`
  - `rate`
  - the validation in `resume_review`
  - the COALESCE-style `profile` update
  - `api_search_placements` with its 120-character snippet
  - `allowed_file` over POSIX `splitext`
- **PII redaction and bounded retry** (`enhancements/llm_client.py`). The email and phone regular expressions are hand-coded as leftmost, greedy matchers, and `re.sub` is modelled as a left-to-right scan. `query_openai` recurses over an abstract sequence of call outcomes, one per attempt, and records the prompts sent and the sleeps taken.
- **Remote job normalisation** (`enhancements/api_jobs.py`). `fetch_api_jobs` reads its credential guard, the request it would send and the decoded JSON answer. It returns `[]` wherever Python would raise.
- **Schema bootstrap** (`enhancements/db.py`). `init_db` works on a catalogue of tables, each mapped to its column list in declaration order. The model covers CREATE TABLE IF NOT EXISTS, the ALTER TABLE ADD COLUMN passes and seeding when the placements table is empty. The CHECK and UNIQUE constraints supply the role and status enumerations and the account invariant. `get_db_conn`/`close_db` is a two-state memo over a request context.
- **Quiz scoring** (`static/js/quiz.js`). The submit handler is a loop method with invariants. The aptitude questions of `static/js/questions_data.js` are encoded as data.

Modules, one per file: `Base`, `Text`, `Schema`, `Connection`, `Uploads`, `Routes`, `Redact`, `Llm`, `Jobs`, `Quiz` and `QuizData`. Each has a `...Properties` module that holds the lemmas about it.

Where the code behaves in a way a reader might not expect, the model follows the code:

- The retry loop also sleeps after the last failed attempt (llm_client.py:51), not only between attempts.
- `update_status` checks no admin role (routes.py:671-685).
- `api_search_placements` reads a `title` column that no schema declares (see Findings).

## Model

| member | source | states |
|---|---|---|
| Schema.ParseRole | enhancements/db.py:35 | a role is accepted exactly when it is "student" or "admin", and reads back to its name |
| Schema.ParseStatus | enhancements/db.py:63 | a status is accepted exactly when it is one of Applied, Shortlisted, Selected, Rejected, and reads back to its name |
| Schema.EnumNamesRoundTrip | enhancements/db.py:35 | every role and every status round-trips through its stored name |
| Schema.CreateTables | enhancements/db.py:29-95 | afterwards the tables are the existing ones plus the script's; existing tables keep their columns, new ones get the declared columns |
| Schema.EnsureColumns | enhancements/db.py:98-107 | the old columns stay a prefix; the result holds exactly the old and the wanted columns; nothing is added when all are present |
| Schema.AddColumns | enhancements/db.py:110-115 | one ADD COLUMN pass touches only its table, keeps the old columns as a prefix, and changes nothing when every wanted column exists |
| Schema.InitCatalog | enhancements/db.py:29-115 | after bootstrap every script table exists, users has phone, skills, profile_pic and resume, placements has eligibility and deadline, other tables are untouched |
| SchemaProperties.EnsureColumnsNoDuplicates | enhancements/db.py:100-115 | adding only absent columns never duplicates a column name |
| SchemaProperties.CreateTablesIdempotent | enhancements/db.py:29-95 | CREATE TABLE IF NOT EXISTS of existing tables changes nothing |
| SchemaProperties.InitCatalogKeepsColumns | enhancements/db.py:29-115 | bootstrap never drops or reorders an existing table's columns |
| SchemaProperties.InitCatalogExtends | enhancements/db.py:29-115 | a table bootstrap creates keeps its declared columns as a prefix |
| SchemaProperties.PlacementsAfterInit | enhancements/db.py:39-47 | after bootstrap the placements columns are exactly the ones it had or was created with, plus eligibility and deadline |
| SchemaProperties.InitCatalogIdempotent | enhancements/db.py:98-115 | a second bootstrap adds no table and no column |
| Schema.SeedIfEmpty | enhancements/db.py:118-140 | an empty placements table receives exactly 16 rows with consecutive ids; a non-empty one receives nothing; no other table changes |
| Schema.SeedPlacements | enhancements/db.py:118-140 | the seed INSERT loop gives one row per remaining seed entry, row `i` taking the consecutive AUTOINCREMENT id `firstId + i` |
| Schema.InitDb | enhancements/db.py:20-142 | bootstrap leaves users, applications, resumes and feedback as they were and placements non-empty |
| SchemaProperties.InitDbIdempotent | enhancements/db.py:20-142 | running `init_db` twice is the same as running it once |
| Connection.GetDbConn | enhancements/db.py:4-11 | the first call opens a connection on the configured file (default placement.db) and memoises it; later calls return the memo unchanged |
| Connection.CloseDb | enhancements/db.py:14-17 | close_db empties the slot and closes the memoised connection, if there was one |
| Connection.GetDbConnMemoises | enhancements/db.py:5-11 | two calls in one context return the same connection |
| Connection.CloseDbOnce | enhancements/db.py:15-17 | a second close_db closes nothing more |
| Connection.OperationsKeepGood | enhancements/db.py:4-17 | get_db_conn and close_db on their own keep the memo open and close no handle twice |
| Connection.GetDbConnIsOpen | enhancements/db.py:5-11 | while only get_db_conn and close_db have run, get_db_conn never hands out a closed connection |
| Connection.RouteClose | enhancements/routes.py:469 | a route's own `conn.close()` (also at routes.py:525, 666, 682, 798 and 806) closes the handle once more and leaves `g.db_conn` and the issued handles as they were |
| Connection.RouteThenTeardownClosesTwice | enhancements/routes.py:469 | a route that calls `conn.close()` on its memoised connection leaves it in `g`, and the teardown close_db (db.py:15-17) closes the same handle again |
| Connection.RouteCloseBreaksGood | enhancements/routes.py:513-525 | after a route's own `conn.close()`, the memo slot holds a closed connection |
| Connection.GetDbConnAfterRouteClose | enhancements/routes.py:659-666 | a later get_db_conn in the same request returns the closed connection from the memo |
| Connection.ReopenIsFresh | enhancements/db.py:4-17 | after close_db the next get_db_conn opens a connection never issued before |
| Uploads.SplitExt | enhancements/routes.py:634 | root and extension rejoin to the name; the extension is empty or a dot followed by no dot or slash |
| Uploads.ExtStart | enhancements/routes.py:634 | `os.path.splitext` cuts the name at a dot followed by no dot or slash and preceded, within the last path component, by a non-dot character, or else at the end |
| Uploads.Join | enhancements/routes.py:651-654 | the joined path ends with the name and starts with the folder unless the name is absolute |
| UploadsProperties.AllowedExtShape | enhancements/routes.py:31 | every allowed extension is a dot followed by lower-case letters |
| UploadsProperties.AllowedFileIff | enhancements/routes.py:633-634 | a name is accepted exactly when it ends, after a non-dot stem in its last path component, in an extension whose lower-case form is .pdf, .docx, .doc or .txt |
| UploadsProperties.AllowedFileIgnoresCase | enhancements/routes.py:633-634 | acceptance does not depend on letter case |
| UploadsProperties.UpperCaseAccepted | enhancements/routes.py:633-634 | "CV.PDF" is accepted |
| UploadsProperties.HiddenFileRefused | enhancements/routes.py:633-634 | ".pdf" has no extension and is refused |
| Routes.Register | enhancements/routes.py:44-72 | registration fails for an empty trimmed username, trimmed email or password; otherwise it succeeds exactly when neither name nor email is taken and the role is valid, appending one user and changing nothing else |
| RoutesProperties.RegisterKeepsValid | enhancements/routes.py:47-70 | registration keeps usernames and emails unique and user ids fresh |
| RoutesProperties.RegisterTwiceRefused | enhancements/routes.py:62-70 | registering the same form again is refused as already existing |
| Routes.Apply | enhancements/routes.py:440-470 | without a session nothing changes; an existing (user, placement) pair changes nothing; otherwise exactly one "Applied" record is appended and nothing else changes |
| RoutesProperties.ApplyKeepsValid | enhancements/routes.py:452-467 | apply keeps at most one application per (user, placement) and fresh application ids |
| RoutesProperties.ApplyTwiceOnce | enhancements/routes.py:452-467 | a second apply for the same pair is refused and leaves the store as the first left it |
| RoutesProperties.AtMostOneApplication | enhancements/routes.py:452-467 | in a valid store two applications of one user for one placement are the same record |
| Routes.SetStatus | enhancements/routes.py:680 | only records with the given id change, and only in their status |
| Routes.UpdateStatus | enhancements/routes.py:671-685 | a status outside the four names changes nothing; otherwise only the status of application `app_id` changes |
| RoutesProperties.UpdateStatusKeepsValid | enhancements/routes.py:673-680 | status updates keep the store invariant |
| RoutesProperties.UpdateStatusIdempotent | enhancements/routes.py:673-680 | applying the same update twice equals applying it once |
| RoutesProperties.UpdateStatusReadBack | enhancements/routes.py:680 | the updated record holds the requested status, which reads back to the submitted name |
| Routes.Rate | enhancements/routes.py:774-799 | an unparseable rating fails the request; without a login nothing changes; a feedback row is added exactly when logged in with 1 <= rating <= 5, and nothing else changes |
| RoutesProperties.RateKeepsValid | enhancements/routes.py:784-796 | every stored rating stays within 1..5, and feedback ids stay distinct and below the AUTOINCREMENT counter |
| Routes.ResumeReview | enhancements/routes.py:642-668 | a missing file or empty filename is refused first, then a disallowed extension; both leave the store unchanged; otherwise one resume row is stored under folder/stamp_name |
| RoutesProperties.ResumeReviewKeepsValid | enhancements/routes.py:645-666 | the stored review takes a fresh resume id, so resume ids stay distinct and below the counter, and the rest of the invariant holds |
| Routes.StoredName | enhancements/routes.py:564-575 | a stored filename exists exactly when a file with a non-empty name was uploaded |
| Routes.FirstNonNull | enhancements/routes.py:581-582 | SQL's COALESCE over any argument list is NULL exactly when every argument is, and otherwise an argument preceded only by NULLs |
| Routes.Coalesce | enhancements/routes.py:581-582 | `COALESCE(new, old)` agrees with SQL's variadic COALESCE, the first non-NULL argument (Routes.FirstNonNull): a new filename replaces the old, NULL keeps it |
| Routes.EditUsers | enhancements/routes.py:578-586 | the UPDATE rewrites only the rows with the session's id |
| Routes.UpdateProfile | enhancements/routes.py:548-589 | without a session nothing changes; an upload whose secured name is empty makes `file.save` raise on the folder itself (picture checked first), failing the request before the UPDATE; a username or email held by another user fails the request and changes nothing; otherwise only the session's row is rewritten, and no empty filename is stored |
| RoutesProperties.ProfileStoresNoEmptyName | enhancements/routes.py:564-586 | a profile update never records an empty picture or resume filename in any row |
| RoutesProperties.EmptySecureNameFails | enhancements/routes.py:565-567 | a picture whose secured name is empty, such as "...", fails the request and leaves the store unchanged |
| RoutesProperties.UpdateProfileKeepsValid | enhancements/routes.py:578-586 | a profile update keeps usernames and emails unique |
| RoutesProperties.EditUsersKeepsAccounts | enhancements/routes.py:578-586 | rewriting one row keeps accounts unique when nobody else holds the new username or email |
| RoutesProperties.ProfileKeepsFilesWithoutUpload | enhancements/routes.py:578-586 | without new files the picture and resume keep their values, while username, email, phone and skills take the trimmed form values |
| Routes.Snippet | enhancements/routes.py:533 | a non-empty description becomes its first 120 characters plus "...", even when shorter; an empty or missing one gives "" |
| RoutesProperties.SnippetWholeIff | enhancements/routes.py:533 | the snippet is the whole description plus "..." exactly when the description has at most 120 characters |
| Routes.FirstMissing | enhancements/routes.py:517-522 | reports a column the statement reads that the table lacks, or none exactly when all exist |
| Routes.Compile | enhancements/routes.py:517-522 | the statement compiles exactly when the table exists and has every column it reads |
| Routes.SearchAsWritten | enhancements/routes.py:506-536 | the endpoint as written fails exactly when its statement does not compile |
| RoutesProperties.SearchAsWrittenAlwaysFails | enhancements/routes.py:518-522 | on any catalogue bootstrap prepares from one without a `title` column, the endpoint as written fails |
| RoutesProperties.SearchAnswersAfterInit | enhancements/routes.py:512-536 | the corrected endpoint answers on every bootstrapped database whose placements table has the columns it reads |
| Routes.SelectMatching | enhancements/routes.py:516-534 | the filtered SELECT returns at most one result per placement, and every placement when the query is empty; RoutesProperties.SelectMatchingSound and SelectMatchingComplete state which ones |
| Routes.SearchPlacements | enhancements/routes.py:512-534 | the corrected endpoint's results over the store never outnumber its placements |
| Routes.Search | enhancements/routes.py:512-536 | the corrected endpoint fails exactly when its statement does not compile against the catalogue |
| RoutesProperties.SelectMatchingSound | enhancements/routes.py:516-534 | every result comes from a placement that matches the query, or any placement when the query is empty |
| RoutesProperties.SelectMatchingComplete | enhancements/routes.py:516-534 | every matching placement appears among the results |
| RoutesProperties.EmptyQueryListsAll | enhancements/routes.py:521-534 | an empty query lists every placement, in table order |
| RoutesProperties.EmptyStoreValid | enhancements/db.py:29-95 | fresh empty tables satisfy the store invariant: unique accounts, one application per pair, ratings in 1..5 and, per table, ids distinct and below the AUTOINCREMENT counter |
| RoutesProperties.InitDbKeepsValid | enhancements/db.py:118-140 | the seed placements take consecutive fresh ids, so placement ids stay distinct and below the counter, and the rest of the invariant holds |
| Redact.RedactPii | enhancements/llm_client.py:19-24 | None and "" are returned unchanged; any other text gives a text (what the redaction removes is stated by RedactProperties.RedactUnchangedIff and RedactProperties.RedactLeavesNoPhone) |
| RedactProperties.EmailMatchIffShape | enhancements/llm_client.py:16 | the email matcher succeeds at a position exactly when an email shape starts there |
| RedactProperties.PhoneMatchIffShape | enhancements/llm_client.py:17 | the phone matcher succeeds at a position exactly when an optional +, a digit, six or more digit/dash/space characters and a digit start there |
| Redact.MatchEmailAt | enhancements/llm_client.py:16 | an email match found at a position has the pattern's shape: a word boundary, name characters, '@', a domain, a last dot and word characters up to a boundary |
| Redact.MatchPhoneAt | enhancements/llm_client.py:17 | a phone match found at a position has the pattern's shape: an optional '+', a digit, at least six run characters, and a final digit |
| Redact.MatchAt | enhancements/llm_client.py:22-23 | the match `re.sub` tries at a position is non-empty and stays inside the text, so the scan always advances |
| RedactProperties.RedactUnchangedIff | enhancements/llm_client.py:22-24 | redaction leaves the text unchanged exactly when it holds no email match and no phone match |
| RedactProperties.RedactLeavesNoPhone | enhancements/llm_client.py:17-23 | after redaction no phone shape remains anywhere in the text |
| RedactProperties.EmailAbsorbsDigits | enhancements/llm_client.py:22-23 | a text that is one email address, digits included, becomes the email placeholder alone |
| RedactProperties.WholePhoneRedacted | enhancements/llm_client.py:22-23 | a text that is one phone run and holds no @ becomes the phone placeholder |
| RedactProperties.EmailExample | enhancements/llm_client.py:22 | "alice@example.com" becomes the email placeholder |
| RedactProperties.PhoneExample | enhancements/llm_client.py:23 | "+1 555-123-4567" becomes the phone placeholder |
| Llm.Attempts | enhancements/llm_client.py:37-52 | at least one and at most retries+1 attempts are made, each sending the same prompt |
| Llm.QueryOpenai | enhancements/llm_client.py:26-52 | when the LLM is not configured the result is "LLM not configured" with no attempt; otherwise 1..retries+1 attempts, each sending the redacted prompt |
| LlmProperties.SleepsAreBackoff | enhancements/llm_client.py:49-51 | the k-th sleep lasts 2^k seconds and follows a failed attempt |
| LlmProperties.FirstReplyAnswers | enhancements/llm_client.py:37-48 | the first successful attempt ends the loop with its stripped content, after one sleep per earlier failure |
| LlmProperties.AllFailedErrors | enhancements/llm_client.py:49-52 | when every attempt fails, the error carries the last failure's message and every attempt was made |
| LlmProperties.QueryAnswersIff | enhancements/llm_client.py:37-52 | the query answers exactly when some attempt within the bound succeeds |
| LlmProperties.TotalBackoff | enhancements/llm_client.py:49-52 | when every attempt fails the sleeps add up to 2^(retries+1) - 1 seconds |
| LlmProperties.SentPromptsHoldNoPhone | enhancements/llm_client.py:35-42 | no prompt sent to the model contains a phone shape |
| Jobs.DisplayName | enhancements/api_jobs.py:29 | a missing or falsy object gives the default, a dict gives its display_name or the default, and any other truthy value raises |
| Jobs.Description | enhancements/api_jobs.py:34 | the description is a prefix of at most 300 elements of the source, "" when missing or falsy, and raises when it cannot be sliced |
| Jobs.NatText | enhancements/api_jobs.py:36 | `str()` of a natural number is a non-empty run of digits without leading zeros |
| Jobs.NormaliseJob | enhancements/api_jobs.py:29-37 | only a dict normalises, and its id starts with "api-" |
| Jobs.NormaliseAll | enhancements/api_jobs.py:28-38 | one record per element of `results`, in order, or failure exactly when some element raises |
| Jobs.JobsFrom | enhancements/api_jobs.py:23-42 | no response, an error status or a body that is not a dict gives [] |
| Jobs.FetchApiJobs | enhancements/api_jobs.py:4-42 | a request is made exactly when app id and key are both set and non-empty; without one the result is [] |
| JobsProperties.FetchNonEmptyIff | enhancements/api_jobs.py:12-42 | the list is non-empty exactly when the credentials are set, the response is readable, `results` is a non-empty list and no element raises |
| JobsProperties.FetchOnePerResult | enhancements/api_jobs.py:27-38 | with readable results that all normalise, the list has one record per result, in order |
| JobsProperties.NormaliseJobFailsIff | enhancements/api_jobs.py:29-37 | an element raises exactly when it is not a dict or its company, location or description has a shape Python cannot handle |
| JobsProperties.NormalisedJobFields | enhancements/api_jobs.py:29-36 | company is "Unknown" and location "" when missing, null or lacking display_name; description is a prefix of at most 300 characters; link is "" when falsy; id is "api-" followed by str() of the remote id |
| JobsProperties.MissingIdExample | enhancements/api_jobs.py:29-36 | an empty record normalises to company "Unknown", empty strings and id "api-None" |
| JobsProperties.NatTextRoundTrip | enhancements/api_jobs.py:36 | reading back the digits `str()` writes gives the number |
| JobsProperties.NumericIdRoundTrip | enhancements/api_jobs.py:36 | a non-negative numeric remote id can be read back from the local id |
| Jobs.IntText | enhancements/api_jobs.py:36 | `str()` of an integer is non-empty and starts with '-' exactly when the integer is negative |
| Jobs.PyStr | enhancements/api_jobs.py:36 | `str()` of a JSON number is sign-and-digits text whose sign matches; of null or a boolean one of "None", "True", "False", "True" exactly for true |
| JobsProperties.PyStrNumInjective | enhancements/api_jobs.py:36 | two numeric ids with the same `str()` are the same number, so distinct numeric ids give distinct local ids |
| JobsProperties.StringIdKept | enhancements/api_jobs.py:36 | a string id is kept verbatim after "api-" |
| Quiz.CountCorrect | static/js/quiz.js:25-29 | the count never exceeds the number of questions |
| Quiz.Submit | static/js/quiz.js:20-44 | the score equals the number of correct selections and is at most the number of questions; there is one line per question, in order, marked Correct exactly when the selection equals the answer and Not Answered exactly when nothing is checked |
| QuizProperties.ScoreCountsCorrect | static/js/quiz.js:25-37 | the score is the size of the set of positions whose selection is the answer |
| QuizProperties.OneQuestionContributes | static/js/quiz.js:27-36 | a question adds one when its selection is the answer and nothing when it is wrong or unanswered |
| QuizProperties.FullScoreIff | static/js/quiz.js:28-40 | full marks exactly when every selection equals its answer |
| QuizProperties.FullScoreReachableIff | static/js/quiz.js:7-29 | through the form, full marks are reachable exactly when every answer is among its question's options |
| QuizData.AptitudeAsWrittenNeverFull | static/js/questions_data.js:65-73 | as written, no submission of the aptitude quiz scores 7 of 7 |
| QuizData.AptitudeFullReachable | static/js/questions_data.js:65-73 | with the answer offered, 7 of 7 is reachable |
| Text.Strip | enhancements/routes.py:47-48 | `str.strip()` (also at routes.py:558-561 and 781) is no longer than its input, starts and ends with no whitespace, and is empty exactly when the input is all whitespace |
| Text.Lower | enhancements/routes.py:512 | `str.lower()` of the query keeps the length and maps each character through LowerChar, so no upper-case ASCII letter remains |

## Left out

- Flask routing, flash messages, redirects, templates and the HTML string building of quiz.js are not modelled. Routes return an outcome value instead.
- SQLite is replaced by in-memory records. These are not modelled:
  - SQL text and `LIKE` wildcards: `%` and `_` in a query are matched literally by `Contains`;
  - transactions;
  - ON DELETE CASCADE, which is also inert in the source because the foreign-keys pragma is never set.
- Routes.SearchPlacements and Routes.MatchesQuery: Python's `str.lower()` of the query is modelled on ASCII letters only, not on all of Unicode.
- Redact.RedactPii: `\w`, `\d` and `\b` are read as ASCII classes, while the str patterns at llm_client.py:16-17 use Python's Unicode classes. Text whose email or phone relies on non-ASCII letters or digits (such as "josé@x.com" or Arabic-Indic digit runs) is redacted by the program but not by the model.
- RedactProperties.EmailMatchIffShape: the email shape reads `\w` and `\b` as ASCII, so it is the pattern of llm_client.py:16 on ASCII text only.
- RedactProperties.PhoneMatchIffShape: the phone shape reads `\d` as ASCII digits, so it is the pattern of llm_client.py:17 on text without other Unicode decimal digits.
- Connection.OperationsKeepGood: the well-formedness it keeps holds only while get_db_conn and close_db are the only operations. A route's own `conn.close()` breaks it (Connection.RouteCloseBreaksGood), and teardown then closes that handle a second time (Connection.RouteThenTeardownClosesTwice). A second close of a sqlite3 connection does nothing.
- Connection.GetDbConnIsOpen: it requires that well-formed context. After a route's own `conn.close()`, get_db_conn returns the closed connection (Connection.GetDbConnAfterRouteClose).
- `secure_filename`, `generate_password_hash`, `analyze_resume` (enhancements/resume_checker.py is not part of this model), the upload timestamp and the upload folder are parameters. Saving files is not modelled.
- Login, logout, the admin dashboard, reports (with their float success rate), the chat and question endpoints, and the file-serving routes are not modelled. So are init_db.py and app.py.
- Routes.Rate: `int()` of the rating field is abstracted as Missing, Parsed(value) or Unparseable. Its string parsing is not modelled.
- Schema.EnsureColumns: SQLite compares table and column names without regard to ASCII case, so an existing column `Phone` would make `ADD COLUMN phone` fail as a duplicate. The model compares names exactly: a foreign name that differs from a script name only in case is an `OtherColumn` or `OtherTable` distinct from it.
- Schema.SeedIfEmpty: the 16 seed rows are encoded verbatim, but no contract states their contents. Only their number and ids are stated.
- Llm.QueryOpenai: `retries` is a natural number. A negative value would leave `last_err` unbound at llm_client.py:52, and that case is not modelled. The OpenAI call, its timeout and `time.sleep` are abstracted as the outcome sequence and the recorded sleep durations.
- Jobs.FetchApiJobs: the `print` of the error and `traceback.print_exc()` in the except branch (api_jobs.py:39-42) write to the console only; the model keeps just the `[]` they precede.
- Jobs.PyStr: `str()` of a list or dict id is a parameter. JSON numbers are integers, so floats are not modelled. The HTTP request is not made: its outcome is the `Response` parameter.
- Quiz.Submit: radio values are taken as given. The HTML escaping of option text in `value="..."` is not modelled.
- Quiz data: only the aptitude set is encoded. The coding, reasoning and interview sets, and the practice questions, are left out.

## Findings

| source | as written | input that shows it | evidently intended | confidence | as-written member | corrected member |
|---|---|---|---|---|---|---|
| enhancements/routes.py:518 | the search statement selects and filters on `title`, a column the placements table never has | any request to `/api/search_placements` on a database `init_db` prepared | read `role AS title` and filter on `lower(role)` | not executed; high | RoutesProperties.SearchAsWrittenAlwaysFails | RoutesProperties.SearchAnswersAfterInit |
| static/js/questions_data.js:72 | the answer "√13 km (~3.6 km)" is none of the options "3 km", "5 km", "6 km" | select every correct option of the aptitude quiz: the score is 6 / 7 | offer the answer as an option | not executed; high | QuizData.AptitudeAsWrittenNeverFull | QuizData.AptitudeFullReachable |

=== FILE: base.dfy ===
/** Small shared vocabulary: an optional value, standing for Python's None. */
module Base {

  datatype Option<+T> = None | Some(value: T) {

    /** The value, or `default` when absent (Python's `x if x is not None else d`). */
    function GetOr(default: T): T {
      match this
      case Some(v) => v
      case None => default
    }
  }

  function Min(a: int, b: int): int {
    if a <= b then a else b
  }
}

=== FILE: connection.dfy ===
/**
 * The per-request connection memo of `enhancements/db.py`: `get_db_conn` opens a connection
 * on first use and stores it in the request context `g`; `close_db` pops it and closes it.
 * The routes of `enhancements/routes.py` also call `conn.close()` on the connection they got,
 * leaving it in `g`; `close_db`, the teardown hook, then closes it a second time.
 * Connections are numbered in the order they are issued.
 */
module Connection {
  import opened Base

  /** The database file used when the application configures none. */
  const DefaultDatabase: string := "placement.db"

  /** An open SQLite connection: its number and the file it was issued on. */
  datatype Conn = Conn(handle: nat, path: string)

  /**
   * The request context: the memo slot `g.db_conn`, how many connections have been opened,
   * and the handles closed so far, in order.
   */
  datatype Ctx = Ctx(slot: Option<Conn>, issued: nat, closed: seq<nat>)

  /** The result of `get_db_conn`: the connection and the context after the call. */
  datatype Got = Got(conn: Conn, ctx: Ctx)

  /**
   * Handles are issued in order, the memoised connection is open (issued and not closed),
   * and no connection has been closed twice. `get_db_conn` and `close_db` keep this; a
   * route's own `conn.close()` breaks it (`RouteCloseBreaksGood`).
   */
  ghost predicate Good(c: Ctx) {
    && (c.slot.Some? ==> c.slot.value.handle < c.issued && c.slot.value.handle !in c.closed)
    && (forall i :: 0 <= i < |c.closed| ==> c.closed[i] < c.issued)
    && (forall i, j :: 0 <= i < j < |c.closed| ==> c.closed[i] != c.closed[j])
  }

  /** `get_db_conn()`; `database` is `current_app.config.get("DATABASE")`. */
  function GetDbConn(c: Ctx, database: Option<string>): (r: Got)
    ensures c.slot.Some? ==> r == Got(c.slot.value, c)
    ensures c.slot.None? ==> r.conn.handle == c.issued && r.conn.path == database.GetOr(DefaultDatabase)
    ensures r.ctx.slot == Some(r.conn) && r.ctx.closed == c.closed
  {
    match c.slot
    case Some(conn) => Got(conn, c)
    case None =>
      var conn := Conn(c.issued, database.GetOr(DefaultDatabase));
      Got(conn, c.(slot := Some(conn), issued := c.issued + 1))
  }

  /** `close_db()`: pop the slot; close what was there, if anything. */
  function CloseDb(c: Ctx): (r: Ctx)
    ensures r.slot.None? && r.issued == c.issued
    ensures c.slot.None? ==> r == c
    ensures c.slot.Some? ==> r.closed == c.closed + [c.slot.value.handle]
  {
    match c.slot
    case None => c
    case Some(conn) => c.(slot := None, closed := c.closed + [conn.handle])
  }

  /**
   * `conn.close()` in a route: the connection is closed, but `g.db_conn` still holds it.
   * Closing an already closed sqlite3 connection does nothing, so a repeat is harmless.
   */
  function RouteClose(c: Ctx, conn: Conn): (r: Ctx)
    ensures r.slot == c.slot && r.issued == c.issued
    ensures conn.handle in r.closed && |r.closed| == |c.closed| + 1 && c.closed <= r.closed
  {
    c.(closed := c.closed + [conn.handle])
  }

  /** A second `get_db_conn` in the same context returns the same connection and changes nothing. */
  lemma GetDbConnMemoises(c: Ctx, database: Option<string>, again: Option<string>)
    ensures var first := GetDbConn(c, database);
            GetDbConn(first.ctx, again) == first
  {
  }

  /** A second `close_db` closes nothing more. */
  lemma CloseDbOnce(c: Ctx)
    ensures CloseDb(CloseDb(c)) == CloseDb(c)
    ensures |CloseDb(c).closed| <= |c.closed| + 1
  {
  }

  /**
   * `get_db_conn` and `close_db` on their own keep the context well-formed: the memo is open
   * and no handle has been closed twice.
   */
  lemma OperationsKeepGood(c: Ctx, database: Option<string>)
    requires Good(c)
    ensures Good(GetDbConn(c, database).ctx)
    ensures Good(CloseDb(c))
  {
    if c.slot.Some? {
      var r := CloseDb(c);
      forall i, j | 0 <= i < j < |r.closed|
        ensures r.closed[i] != r.closed[j]
      {
        if j == |c.closed| {
          assert r.closed[j] == c.slot.value.handle;
          assert r.closed[i] == c.closed[i];
        }
      }
    }
  }

  /** In a well-formed context, `get_db_conn` never hands out a closed connection. */
  lemma GetDbConnIsOpen(c: Ctx, database: Option<string>)
    requires Good(c)
    ensures GetDbConn(c, database).conn.handle !in c.closed
  {
  }

  /** After `close_db`, the next `get_db_conn` opens a connection never issued before. */
  lemma ReopenIsFresh(c: Ctx, database: Option<string>)
    requires Good(c)
    ensures var r := GetDbConn(CloseDb(c), database);
            r.conn.handle == c.issued && r.conn.handle !in CloseDb(c).closed
  {
  }

  /**
   * A route that closes its connection and the teardown `close_db` that follows close the
   * same handle twice: the handle is recorded once by the route and once by the teardown.
   */
  lemma RouteThenTeardownClosesTwice(c: Ctx, database: Option<string>)
    ensures var got := GetDbConn(c, database);
            var after := CloseDb(RouteClose(got.ctx, got.conn));
            && after.closed == c.closed + [got.conn.handle, got.conn.handle]
            && after.slot.None?
  {
    var got := GetDbConn(c, database);
    assert RouteClose(got.ctx, got.conn).slot == Some(got.conn);
  }

  /** After a route's `conn.close()`, the memo holds a closed connection, which breaks `Good`. */
  lemma RouteCloseBreaksGood(c: Ctx, database: Option<string>)
    ensures var got := GetDbConn(c, database);
            !Good(RouteClose(got.ctx, got.conn))
  {
    var got := GetDbConn(c, database);
    assert RouteClose(got.ctx, got.conn).slot == Some(got.conn);
  }

  /**
   * A second `get_db_conn` in a request whose route already closed its connection returns
   * that closed connection from the memo.
   */
  lemma GetDbConnAfterRouteClose(c: Ctx, database: Option<string>, again: Option<string>)
    ensures var got := GetDbConn(c, database);
            var ctx := RouteClose(got.ctx, got.conn);
            GetDbConn(ctx, again).conn == got.conn && got.conn.handle in ctx.closed
  {
    var got := GetDbConn(c, database);
    assert RouteClose(got.ctx, got.conn).slot == Some(got.conn);
  }
}

=== FILE: jobs.dfy ===
/**
 * `fetch_api_jobs` (enhancements/api_jobs.py): the credential guard, the request it would
 * send, and the normalisation of the decoded answer into placement-shaped records. The HTTP
 * call itself is a parameter: the `Response` the network gave.
 */
module Jobs {
  import opened Base
  import opened Text

  /** A decoded JSON value; numbers are integers in this model. */
  datatype Json =
    | Null
    | Bool(b: bool)
    | Num(n: int)
    | Str(s: string)
    | Arr(items: seq<Json>)
    | Obj(fields: map<string, Json>)

  /** Python truthiness of a decoded value. */
  predicate Truthy(j: Json) {
    match j
    case Null => false
    case Bool(b) => b
    case Num(n) => n != 0
    case Str(s) => s != ""
    case Arr(a) => a != []
    case Obj(m) => m != map[]
  }

  /** Python's `a or b`. */
  function Or(a: Json, b: Json): Json {
    if Truthy(a) then a else b
  }

  /** `d.get(key)`: the value, or None when the key is absent. */
  function Get(m: map<string, Json>, key: string): Json {
    if key in m then m[key] else Null
  }

  const DescriptionLimit: nat := 300
  const IdPrefix: string := "api-"
  const UnknownCompany: string := "Unknown"

  /**
   * `(j or {}).get("display_name", fallback)`. None where Python raises: a truthy value that
   * is not a dict has no `.get`.
   */
  function DisplayName(j: Json, fallback: Json): (r: Option<Json>)
    ensures r.None? <==> Truthy(j) && !j.Obj?
    ensures r.Some? && !(j.Obj? && "display_name" in j.fields) ==> r.value == fallback
    ensures j.Obj? && "display_name" in j.fields ==> r == Some(j.fields["display_name"])
  {
    match Or(j, Obj(map[]))
    case Obj(m) => Some(if "display_name" in m then m["display_name"] else fallback)
    case _ => None
  }

  /**
   * `(j or "")[:300]`: a prefix of a string (or of a list) of at most 300 elements. None
   * where Python raises: a truthy number, boolean or dict cannot be sliced.
   */
  function Description(j: Json): (r: Option<Json>)
    ensures r.None? <==> Truthy(j) && !j.Str? && !j.Arr?
    ensures !Truthy(j) ==> r == Some(Str(""))
    ensures j.Str? ==> && r.Some? && r.value.Str?
                       && r.value.s <= j.s && |r.value.s| == Min(|j.s|, DescriptionLimit)
    ensures j.Arr? && j.items != [] ==>
              && r.Some? && r.value.Arr?
              && r.value.items <= j.items && |r.value.items| == Min(|j.items|, DescriptionLimit)
  {
    match Or(j, Str(""))
    case Str(s) => Some(Str(Take(s, DescriptionLimit)))
    case Arr(a) => Some(Arr(Take(a, DescriptionLimit)))
    case _ => None
  }

  function Digit(d: nat): (c: char)
    requires d < 10
    ensures IsDigit(c)
  {
    "0123456789"[d]
  }

  /** The decimal digits of `n`, without leading zeros: Python's `str(n)` for `n >= 0`. */
  function NatText(n: nat): (r: string)
    ensures |r| >= 1
    ensures forall i :: 0 <= i < |r| ==> IsDigit(r[i])
    ensures |r| > 1 ==> r[0] != '0'
    decreases n
  {
    if n < 10 then [Digit(n)] else NatText(n / 10) + [Digit(n % 10)]
  }

  /** `s` is how Python writes an integer: an optional minus sign, then digits without a leading zero. */
  predicate IsIntText(s: string) {
    var k := if |s| > 0 && s[0] == '-' then 1 else 0;
    && k < |s|
    && (forall i :: k <= i < |s| ==> IsDigit(s[i]))
    && (|s| > k + 1 ==> s[k] != '0')
  }

  /** Python's `str(n)` for an integer. */
  function IntText(n: int): (r: string)
    ensures |r| >= 1
    ensures n < 0 <==> r[0] == '-'
  {
    if n < 0 then "-" + NatText(-n) else NatText(n)
  }

  /**
   * Python's `str(j)`. The text of a list or a dict (its `repr`) is left to the parameter
   * `repr`.
   */
  function PyStr(j: Json, repr: Json -> string): (r: string)
    ensures j.Num? ==> IsIntText(r) && (r[0] == '-' <==> j.n < 0)
    ensures j.Null? || j.Bool? ==> r in {"None", "True", "False"}
    ensures j.Bool? ==> (r == "True" <==> j.b)
  {
    match j
    case Null => "None"
    case Bool(b) => if b then "True" else "False"
    case Num(n) => IntText(n)
    case Str(s) => s
    case Arr(_) => repr(j)
    case Obj(_) => repr(j)
  }

  /** One normalised job, placement-shaped; the values keep the JSON types the API gave. */
  datatype ApiJob = ApiJob(company: Json, role: Json, location: Json, description: Json, link: Json, id: string)

  /**
   * The dict the loop appends for one element of `results`; None where building it raises
   * (an element that is not a dict, or a field whose shape Python cannot handle).
   */
  function NormaliseJob(job: Json, repr: Json -> string): (r: Option<ApiJob>)
    ensures r.Some? ==> job.Obj?
    ensures r.Some? ==> IdPrefix <= r.value.id
  {
    match job
    case Obj(m) =>
      var company := DisplayName(Get(m, "company"), Str(UnknownCompany));
      var location := DisplayName(Get(m, "location"), Str(""));
      var description := Description(Get(m, "description"));
      if company.None? || location.None? || description.None? then None
      else
        Some(ApiJob(company.value, Get(m, "title"), location.value, description.value,
                    Or(Get(m, "redirect_url"), Str("")), IdPrefix + PyStr(Get(m, "id"), repr)))
    case _ => None
  }

  /**
   * The loop over `results`: one record per element, in order; None as soon as one element
   * raises, since the exception abandons the whole list.
   */
  function NormaliseAll(results: seq<Json>, repr: Json -> string): (r: Option<seq<ApiJob>>)
    ensures r.None? <==> exists i :: 0 <= i < |results| && NormaliseJob(results[i], repr).None?
    ensures r.Some? ==> |r.value| == |results|
    ensures r.Some? ==> forall i :: 0 <= i < |results| ==>
              NormaliseJob(results[i], repr) == Some(r.value[i])
    decreases |results|
  {
    if |results| == 0 then Some([])
    else
      match NormaliseJob(results[0], repr)
      case None => None
      case Some(job) =>
        match NormaliseAll(results[1..], repr)
        case None =>
          assert forall i :: 0 <= i < |results| - 1 ==> results[1..][i] == results[i + 1];
          None
        case Some(rest) => Some([job] + rest)
  }

  /** The three environment variables the function reads; None when unset. */
  datatype Env = Env(appId: Option<string>, appKey: Option<string>, country: Option<string>)

  const DefaultCountry: string := "in"

  /** `app_id` and `app_key` are both set and non-empty. */
  predicate Credentialed(env: Env) {
    env.appId.Some? && env.appId.value != "" && env.appKey.Some? && env.appKey.value != ""
  }

  /** The GET request: the URL and the query parameters. */
  datatype Request = Request(
    url: string, appId: string, appKey: string, what: string, place: string, resultsPerPage: int)

  /** What the network gave back: nothing (a connection error or timeout) or a status and a body, if it decoded as JSON. */
  datatype Response = NoResponse | Answered(status: int, body: Option<Json>)

  /** `raise_for_status()` raises for the client and server error statuses. */
  predicate ErrorStatus(status: int) {
    400 <= status < 600
  }

  /** The request made (None when none is) and the returned list. */
  datatype FetchRun = FetchRun(request: Option<Request>, jobs: seq<ApiJob>)

  function SearchUrl(country: string): string {
    "https://api.adzuna.com/v1/api/jobs/" + country + "/search/1"
  }

  /**
   * What the `try` block yields from the response: the normalised results when the status is
   * not an error, the body decoded to a dict whose `results` is a list, and no element
   * raised; `[]` otherwise. A `results` that is missing, or is a string or dict (iterated by
   * character or by key, whose `.get` raises unless empty), or is null or a number
   * (not iterable) all end in `[]`.
   */
  function JobsFrom(response: Response, repr: Json -> string): (r: seq<ApiJob>)
    ensures response.NoResponse? ==> r == []
    ensures response.Answered? && ErrorStatus(response.status) ==> r == []
    ensures response.Answered? && (response.body.None? || !response.body.value.Obj?) ==> r == []
  {
    match response
    case NoResponse => []
    case Answered(status, body) =>
      if ErrorStatus(status) || body.None? || !body.value.Obj? then []
      else
        match Get(body.value.fields, "results")
        case Arr(items) => NormaliseAll(items, repr).GetOr([])
        case _ => []
  }

  /** `fetch_api_jobs(query, location, max_results)` against one response of the network. */
  function FetchApiJobs(env: Env, query: Option<string>, location: Option<string>, maxResults: int,
                        response: Response, repr: Json -> string): (r: FetchRun)
    ensures r.request.None? <==> !Credentialed(env)
    ensures r.request.None? ==> r.jobs == []
    ensures r.request.Some? ==> && r.request.value.appId == env.appId.value
                                && r.request.value.appKey == env.appKey.value
                                && r.request.value.resultsPerPage == maxResults
  {
    if !Credentialed(env) then FetchRun(None, [])
    else
      var request := Request(SearchUrl(env.country.GetOr(DefaultCountry)), env.appId.value, env.appKey.value,
                             query.GetOr(""), location.GetOr(""), maxResults);
      FetchRun(Some(request), JobsFrom(response, repr))
  }
}

=== FILE: jobs_properties.dfy ===
/** What `fetch_api_jobs` promises about the list it returns. */
module JobsProperties {
  import opened Base
  import opened Text
  import opened Jobs

  /** A response the `try` block reads through: no error status, a dict body, `results` a list. */
  predicate Readable(response: Response) {
    && response.Answered? && !ErrorStatus(response.status)
    && response.body.Some? && response.body.value.Obj?
    && Get(response.body.value.fields, "results").Arr?
  }

  function ResultsOf(response: Response): seq<Json>
    requires Readable(response)
  {
    Get(response.body.value.fields, "results").items
  }

  /** Every element of `results` normalises without raising. */
  predicate AllNormalise(items: seq<Json>, repr: Json -> string) {
    forall i :: 0 <= i < |items| ==> NormaliseJob(items[i], repr).Some?
  }

  /**
   * The list is non-empty exactly when the credentials are set, the response is readable,
   * `results` is non-empty and none of its elements raises.
   */
  lemma FetchNonEmptyIff(env: Env, query: Option<string>, location: Option<string>, maxResults: int,
                         response: Response, repr: Json -> string)
    ensures FetchApiJobs(env, query, location, maxResults, response, repr).jobs != [] <==>
              && Credentialed(env) && Readable(response)
              && ResultsOf(response) != [] && AllNormalise(ResultsOf(response), repr)
  {
    if Credentialed(env) && Readable(response) {
      var items := ResultsOf(response);
      if AllNormalise(items, repr) {
        assert |NormaliseAll(items, repr).value| == |items|;
      }
    }
  }

  /**
   * With the credentials set and a readable response whose elements all normalise, the list
   * holds one record per element of `results`, in the same order.
   */
  lemma FetchOnePerResult(env: Env, query: Option<string>, location: Option<string>, maxResults: int,
                          response: Response, repr: Json -> string)
    requires Credentialed(env) && Readable(response) && AllNormalise(ResultsOf(response), repr)
    ensures var jobs := FetchApiJobs(env, query, location, maxResults, response, repr).jobs;
            && |jobs| == |ResultsOf(response)|
            && forall i :: 0 <= i < |jobs| ==> Some(jobs[i]) == NormaliseJob(ResultsOf(response)[i], repr)
  {
  }

  /** An element raises exactly when it is not a dict or one of its three read-through fields has the wrong shape. */
  lemma NormaliseJobFailsIff(job: Json, repr: Json -> string)
    ensures NormaliseJob(job, repr).None? <==>
              || !job.Obj?
              || (Truthy(Get(job.fields, "company")) && !Get(job.fields, "company").Obj?)
              || (Truthy(Get(job.fields, "location")) && !Get(job.fields, "location").Obj?)
              || (var d := Get(job.fields, "description"); Truthy(d) && !d.Str? && !d.Arr?)
  {
  }

  /** A `company` or `location` field with no usable `display_name`. */
  predicate NoDisplayName(j: Json) {
    !Truthy(j) || (j.Obj? && "display_name" !in j.fields)
  }

  /**
   * The defaults and shapes of one normalised record: company "Unknown" and location "" when
   * the object is missing, null or lacks `display_name`; the description a prefix of at most
   * 300 characters, "" when missing or null; the link "" when `redirect_url` is falsy; the
   * id "api-" followed by `str()` of the remote id.
   */
  lemma NormalisedJobFields(job: Json, repr: Json -> string)
    requires NormaliseJob(job, repr).Some?
    ensures var r := NormaliseJob(job, repr).value;
            var m := job.fields;
            && (NoDisplayName(Get(m, "company")) ==> r.company == Str(UnknownCompany))
            && (Get(m, "company").Obj? && "display_name" in Get(m, "company").fields ==>
                  r.company == Get(m, "company").fields["display_name"])
            && (NoDisplayName(Get(m, "location")) ==> r.location == Str(""))
            && r.role == Get(m, "title")
            && (!Truthy(Get(m, "description")) ==> r.description == Str(""))
            && (Get(m, "description").Str? ==>
                  && r.description.Str? && r.description.s <= Get(m, "description").s
                  && |r.description.s| <= DescriptionLimit)
            && (!Truthy(Get(m, "redirect_url")) ==> r.link == Str(""))
            && (Truthy(Get(m, "redirect_url")) ==> r.link == Get(m, "redirect_url"))
            && IdPrefix <= r.id && r.id[|IdPrefix|..] == PyStr(Get(m, "id"), repr)
  {
  }

  /** A missing remote id gives "api-None". */
  lemma MissingIdExample(repr: Json -> string)
    ensures NormaliseJob(Obj(map[]), repr) == Some(ApiJob(Str("Unknown"), Null, Str(""), Str(""), Str(""), "api-None"))
  {
    var m: map<string, Json> := map[];
    assert Get(m, "company") == Null && Get(m, "location") == Null && Get(m, "description") == Null;
    assert Get(m, "id") == Null && Get(m, "title") == Null && Get(m, "redirect_url") == Null;
    assert IdPrefix + "None" == "api-None";
  }

  /** The value of a string of decimal digits. */
  function DigitsValue(s: string): nat
    requires forall i :: 0 <= i < |s| ==> IsDigit(s[i])
    decreases |s|
  {
    if |s| == 0 then 0
    else
      assert IsDigit(s[|s| - 1]);
      10 * DigitsValue(s[..|s| - 1]) + (s[|s| - 1] as int - '0' as int)
  }

  lemma DigitValue(d: nat)
    requires d < 10
    ensures Digit(d) as int - '0' as int == d
  {
    assert "0123456789"[d] as int == '0' as int + d;
  }

  /** Reading back the digits `str()` writes gives the number: the id text loses nothing. */
  lemma {:induction false} NatTextRoundTrip(n: nat)
    ensures DigitsValue(NatText(n)) == n
    decreases n
  {
    var t := NatText(n);
    if n < 10 {
      DigitValue(n);
    } else {
      NatTextRoundTrip(n / 10);
      DigitValue(n % 10);
      assert t[..|t| - 1] == NatText(n / 10);
    }
  }

  /** `str()` tells integers apart: two integers with the same text are equal. */
  lemma PyStrNumInjective(a: int, b: int, repr: Json -> string)
    requires PyStr(Num(a), repr) == PyStr(Num(b), repr)
    ensures a == b
  {
    IntTextInjective(a, b);
  }

  /** The same fact for `IntText`: the sign and the digits both read back. */
  lemma IntTextInjective(a: int, b: int)
    requires IntText(a) == IntText(b)
    ensures a == b
  {
    if a < 0 {
      assert b < 0;
      NegativeText(a);
      NegativeText(b);
      SameNatText(-a, -b);
    } else {
      assert b >= 0;
      SameNatText(a, b);
    }
  }

  /** Equal digit texts come from equal numbers. */
  lemma SameNatText(m: nat, n: nat)
    requires NatText(m) == NatText(n)
    ensures m == n
  {
    NatTextRoundTrip(m);
    NatTextRoundTrip(n);
  }

  /** A negative integer's text is its magnitude's digits after the sign. */
  lemma NegativeText(n: int)
    requires n < 0
    ensures IntText(n)[1..] == NatText(-n)
  {
    assert IntText(n) == "-" + NatText(-n);
  }

  /** A remote id that is a string is kept verbatim after the "api-" prefix. */
  lemma StringIdKept(job: Json, repr: Json -> string)
    requires NormaliseJob(job, repr).Some? && Get(job.fields, "id").Str?
    ensures NormaliseJob(job, repr).value.id == IdPrefix + Get(job.fields, "id").s
  {
    NormalisedJobFields(job, repr);
  }

  /** A numeric remote id can be read back from the record's id. */
  lemma NumericIdRoundTrip(job: Json, repr: Json -> string)
    requires NormaliseJob(job, repr).Some?
    requires Get(job.fields, "id").Num? && Get(job.fields, "id").n >= 0
    ensures var id := NormaliseJob(job, repr).value.id;
            var digits := id[|IdPrefix|..];
            && (forall i :: 0 <= i < |digits| ==> IsDigit(digits[i]))
            && DigitsValue(digits) == Get(job.fields, "id").n
  {
    NormalisedJobFields(job, repr);
    NatTextRoundTrip(Get(job.fields, "id").n);
  }
}

=== FILE: llm.dfy ===
/**
 * `query_openai` of `enhancements/llm_client.py`: redact the prompt, then try the chat
 * completion up to `retries + 1` times, sleeping `2^attempt` seconds after each failure.
 * The remote call is abstracted as a sequence of outcomes, one per attempt, and the sleeps
 * as the list of their durations.
 */
module Llm {
  import opened Base
  import opened Text
  import opened Redact

  /** What one call of the chat-completion API does: reply with content, or raise. */
  datatype CallOutcome = Replied(content: string) | Raised(message: string)

  /** The dictionary `query_openai` returns: `{"answer": ...}` or `{"error": ...}`. */
  datatype Reply = Answer(text: string) | Error(message: string)

  /** A run of `query_openai`: its reply, the user prompt of every attempt, and every sleep. */
  datatype Run = Run(reply: Reply, sent: seq<string>, sleeps: seq<nat>)

  const NotConfigured: string := "LLM not configured"
  const FailurePrefix: string := "LLM request failed after retries: "

  function Pow2(k: nat): (r: nat)
    ensures r >= 1
  {
    if k == 0 then 1 else 2 * Pow2(k - 1)
  }

  function Sum(xs: seq<nat>): nat {
    if |xs| == 0 then 0 else xs[0] + Sum(xs[1..])
  }

  /** No outcome in `[from, to)` is a reply. */
  predicate AllRaised(outcomes: seq<CallOutcome>, from: nat, to: nat)
    requires to <= |outcomes|
  {
    forall i :: from <= i < to ==> outcomes[i].Raised?
  }

  /**
   * The loop `for attempt in range(retries + 1)` from `attempt` on: the first reply ends it
   * with the stripped content; a failure records its message and sleeps `2^attempt`.
   */
  function Attempts(prompt: string, outcomes: seq<CallOutcome>, attempt: nat, retries: nat): (r: Run)
    requires attempt <= retries < |outcomes|
    ensures 1 <= |r.sent| <= retries + 1 - attempt
    ensures forall i :: 0 <= i < |r.sent| ==> r.sent[i] == prompt
    ensures |r.sleeps| <= |r.sent|
    decreases retries - attempt
  {
    match outcomes[attempt]
    case Replied(content) => Run(Answer(Strip(content)), [prompt], [])
    case Raised(message) =>
      if attempt == retries then
        Run(Error(FailurePrefix + message), [prompt], [Pow2(attempt)])
      else
        var rest := Attempts(prompt, outcomes, attempt + 1, retries);
        Run(rest.reply, [prompt] + rest.sent, [Pow2(attempt)] + rest.sleeps)
  }

  /**
   * `query_openai(prompt, retries=retries)`. `enabled` is `is_llm_enabled()`; `outcomes[i]` is
   * what attempt `i` of the remote call does. A negative `retries` is not modelled.
   */
  function QueryOpenai(enabled: bool, prompt: string, retries: nat, outcomes: seq<CallOutcome>): (r: Run)
    requires retries < |outcomes|
    ensures !enabled ==> r == Run(Error(NotConfigured), [], [])
    ensures enabled ==> 1 <= |r.sent| <= retries + 1
    ensures forall i :: 0 <= i < |r.sent| ==> r.sent[i] == RedactPii(Some(prompt)).value
  {
    if !enabled then Run(Error(NotConfigured), [], [])
    else
      var safePrompt := RedactPii(Some(prompt)).value;
      Attempts(safePrompt, outcomes, 0, retries)
  }
}

=== FILE: llm_properties.dfy ===
/** What the retry loop of `query_openai` promises, proved over every sequence of outcomes. */
module LlmProperties {
  import opened Base
  import opened Text
  import opened Redact
  import opened RedactProperties
  import opened Llm

  /**
   * The sleeps of `r`, a run from attempt `attempt` on, are the backoff after a failure:
   * sleep `i` lasts `2^(attempt+i)` seconds and follows a failed attempt `attempt + i`.
   */
  predicate BackoffFrom(r: Run, outcomes: seq<CallOutcome>, attempt: nat) {
    && attempt + |r.sleeps| <= |outcomes|
    && (forall i :: 0 <= i < |r.sleeps| ==> r.sleeps[i] == Pow2(attempt + i))
    && AllRaised(outcomes, attempt, attempt + |r.sleeps|)
  }

  /** Attempt `i` (counted from `attempt`) that failed sleeps `2^(attempt+i)` seconds. */
  lemma {:induction false} SleepsAreBackoff(prompt: string, outcomes: seq<CallOutcome>, attempt: nat, retries: nat)
    requires attempt <= retries < |outcomes|
    ensures BackoffFrom(Attempts(prompt, outcomes, attempt, retries), outcomes, attempt)
    decreases retries - attempt
  {
    if outcomes[attempt].Raised? && attempt < retries {
      SleepsAreBackoff(prompt, outcomes, attempt + 1, retries);
      BackoffStep(prompt, outcomes, attempt, retries);
    } else {
      BackoffLast(prompt, outcomes, attempt, retries);
    }
  }

  /** A reply sleeps no more; the last failed attempt sleeps `2^attempt` once. */
  lemma BackoffLast(prompt: string, outcomes: seq<CallOutcome>, attempt: nat, retries: nat)
    requires attempt <= retries < |outcomes|
    requires outcomes[attempt].Replied? || attempt == retries
    ensures BackoffFrom(Attempts(prompt, outcomes, attempt, retries), outcomes, attempt)
  {
    var r := Attempts(prompt, outcomes, attempt, retries);
    if outcomes[attempt].Raised? {
      assert r.sleeps == [Pow2(attempt)];
    } else {
      assert r.sleeps == [];
    }
  }

  /** A failed attempt that is not the last sleeps `2^attempt` before the sleeps of the rest. */
  lemma BackoffStep(prompt: string, outcomes: seq<CallOutcome>, attempt: nat, retries: nat)
    requires attempt < retries < |outcomes| && outcomes[attempt].Raised?
    requires BackoffFrom(Attempts(prompt, outcomes, attempt + 1, retries), outcomes, attempt + 1)
    ensures BackoffFrom(Attempts(prompt, outcomes, attempt, retries), outcomes, attempt)
  {
    var rest := Attempts(prompt, outcomes, attempt + 1, retries);
    var r := Attempts(prompt, outcomes, attempt, retries);
    assert r.sleeps == [Pow2(attempt)] + rest.sleeps;
    forall i | 0 <= i < |r.sleeps|
      ensures r.sleeps[i] == Pow2(attempt + i)
    {
      if i > 0 {
        assert r.sleeps[i] == rest.sleeps[i - 1];
      }
    }
  }

  /** The first reply, at attempt `k`, ends the loop with its stripped content after `k` sleeps. */
  lemma {:induction false} FirstReplyAnswers(prompt: string, outcomes: seq<CallOutcome>, attempt: nat, retries: nat, k: nat)
    requires attempt <= k <= retries < |outcomes|
    requires AllRaised(outcomes, attempt, k) && outcomes[k].Replied?
    ensures var r := Attempts(prompt, outcomes, attempt, retries);
            && r.reply == Answer(Strip(outcomes[k].content))
            && |r.sent| == k - attempt + 1
            && |r.sleeps| == k - attempt
    decreases k - attempt
  {
    var r := Attempts(prompt, outcomes, attempt, retries);
    if attempt < k {
      FirstReplyAnswers(prompt, outcomes, attempt + 1, retries, k);
      var rest := Attempts(prompt, outcomes, attempt + 1, retries);
      assert outcomes[attempt].Raised?;
      assert r.reply == rest.reply;
      assert |r.sent| == 1 + |rest.sent|;
      assert |r.sleeps| == 1 + |rest.sleeps|;
    }
  }

  /**
   * When every attempt fails, the error carries the last failure's message, every attempt
   * was made, and the sleeps add up to `2^(retries+1) - 2^attempt`.
   */
  lemma {:induction false} AllFailedErrors(prompt: string, outcomes: seq<CallOutcome>, attempt: nat, retries: nat)
    requires attempt <= retries < |outcomes|
    requires AllRaised(outcomes, attempt, retries + 1)
    ensures var r := Attempts(prompt, outcomes, attempt, retries);
            && r.reply == Error(FailurePrefix + outcomes[retries].message)
            && |r.sent| == |r.sleeps| == retries + 1 - attempt
            && Sum(r.sleeps) + Pow2(attempt) == Pow2(retries + 1)
    decreases retries - attempt
  {
    if attempt < retries {
      AllFailedErrors(prompt, outcomes, attempt + 1, retries);
      var rest := Attempts(prompt, outcomes, attempt + 1, retries);
      var r := Attempts(prompt, outcomes, attempt, retries);
      assert r.sleeps == [Pow2(attempt)] + rest.sleeps;
      assert r.sleeps[1..] == rest.sleeps;
    } else {
      var r := Attempts(prompt, outcomes, attempt, retries);
      assert r.sleeps == [Pow2(attempt)];
      assert r.sleeps[1..] == [];
    }
  }

  /**
   * With the client configured, `query_openai` answers exactly when one of its `retries + 1`
   * attempts gets a reply.
   */
  lemma QueryAnswersIff(prompt: string, retries: nat, outcomes: seq<CallOutcome>)
    requires retries < |outcomes|
    ensures QueryOpenai(true, prompt, retries, outcomes).reply.Answer?
            <==> exists k :: 0 <= k <= retries && outcomes[k].Replied?
  {
    var safePrompt := RedactPii(Some(prompt)).value;
    if k :| 0 <= k <= retries && outcomes[k].Replied? {
      var first := FirstReply(outcomes, k);
      FirstReplyAnswers(safePrompt, outcomes, 0, retries, first);
    } else {
      AllFailedErrors(safePrompt, outcomes, 0, retries);
    }
  }

  /** The least index of a reply, given that `k` is one. */
  function FirstReply(outcomes: seq<CallOutcome>, k: nat): (first: nat)
    requires k < |outcomes| && outcomes[k].Replied?
    ensures first <= k && outcomes[first].Replied? && AllRaised(outcomes, 0, first)
  {
    if exists j :: 0 <= j < k && outcomes[j].Replied? then
      var j :| 0 <= j < k && outcomes[j].Replied?;
      FirstReply(outcomes, j)
    else k
  }

  /** After every attempt fails, the caller waited `2^(retries+1) - 1` seconds in total. */
  lemma TotalBackoff(prompt: string, retries: nat, outcomes: seq<CallOutcome>)
    requires retries < |outcomes| && AllRaised(outcomes, 0, retries + 1)
    ensures var r := QueryOpenai(true, prompt, retries, outcomes);
            && r.reply == Error(FailurePrefix + outcomes[retries].message)
            && Sum(r.sleeps) == Pow2(retries + 1) - 1
  {
    AllFailedErrors(RedactPii(Some(prompt)).value, outcomes, 0, retries);
  }

  /** No prompt that reaches the remote service holds a phone number of the redaction pattern. */
  lemma SentPromptsHoldNoPhone(enabled: bool, prompt: string, retries: nat, outcomes: seq<CallOutcome>)
    requires retries < |outcomes|
    ensures var r := QueryOpenai(enabled, prompt, retries, outcomes);
            forall i, p, d, e :: 0 <= i < |r.sent| ==> !PhoneShape(r.sent[i], p, d, e)
  {
    RedactLeavesNoPhone(prompt);
  }
}

=== FILE: quiz.dfy ===
/**
 * The submit handler of `loadQuiz` (static/js/quiz.js): each question's checked radio value
 * is compared with the question's answer, the score counts the matches, and one feedback
 * line per question says Correct, Wrong or Not Answered.
 */
module Quiz {
  import opened Base

  /** One quiz question: the prompt, the radio options in order, and the expected answer. */
  datatype Question = Question(text: string, options: seq<string>, answer: string)

  /**
   * One feedback line. `number` is the 1-based question number; the Wrong and Not Answered
   * lines show the expected answer.
   */
  datatype Line =
    | Correct(number: nat)
    | Wrong(number: nat, expected: string)
    | NotAnswered(number: nat, expected: string)

  /** The checked value (None when no radio of the group is checked) strictly equals the answer. */
  predicate IsCorrect(q: Question, selected: Option<string>) {
    selected == Some(q.answer)
  }

  /** The number of questions answered correctly, counted from the front. */
  function CountCorrect(questions: seq<Question>, selected: seq<Option<string>>): (r: nat)
    requires |selected| == |questions|
    ensures r <= |questions|
    decreases |questions|
  {
    if |questions| == 0 then 0
    else
      var n := |questions| - 1;
      CountCorrect(questions[..n], selected[..n]) + (if IsCorrect(questions[n], selected[n]) then 1 else 0)
  }

  /**
   * The click handler. `selected[i]` is the value of the checked radio of group `q<i>`, or
   * None when none is checked. The returned `score` and `lines` make up the result panel.
   */
  method Submit(questions: seq<Question>, selected: seq<Option<string>>) returns (score: nat, lines: seq<Line>)
    requires |selected| == |questions|
    ensures score == CountCorrect(questions, selected)
    ensures score <= |questions|
    ensures |lines| == |questions|
    ensures forall i :: 0 <= i < |lines| ==> lines[i].number == i + 1
    ensures forall i :: 0 <= i < |lines| ==> (lines[i].Correct? <==> IsCorrect(questions[i], selected[i]))
    ensures forall i :: 0 <= i < |lines| ==> (lines[i].NotAnswered? <==> selected[i].None?)
    ensures forall i :: 0 <= i < |lines| && !lines[i].Correct? ==> lines[i].expected == questions[i].answer
  {
    score := 0;
    lines := [];
    var i := 0;
    while i < |questions|
      invariant 0 <= i <= |questions|
      invariant score == CountCorrect(questions[..i], selected[..i])
      invariant |lines| == i
      invariant forall k :: 0 <= k < i ==> lines[k].number == k + 1
      invariant forall k :: 0 <= k < i ==> (lines[k].Correct? <==> IsCorrect(questions[k], selected[k]))
      invariant forall k :: 0 <= k < i ==> (lines[k].NotAnswered? <==> selected[k].None?)
      invariant forall k :: 0 <= k < i && !lines[k].Correct? ==> lines[k].expected == questions[k].answer
    {
      var q := questions[i];
      match selected[i] {
        case Some(value) =>
          if value == q.answer {
            score := score + 1;
            lines := lines + [Correct(i + 1)];
          } else {
            lines := lines + [Wrong(i + 1, q.answer)];
          }
        case None =>
          lines := lines + [NotAnswered(i + 1, q.answer)];
      }
      assert questions[..i + 1][..i] == questions[..i];
      assert selected[..i + 1][..i] == selected[..i];
      i := i + 1;
    }
    assert questions[..i] == questions;
    assert selected[..i] == selected;
  }
}

=== FILE: quiz_data.dfy ===
/**
 * The aptitude quiz of static/js/questions_data.js. Its seventh question expects an answer
 * that is none of its options, so no submission through the form gets full marks; the
 * corrected set offers that answer as a fourth option.
 */
module QuizData {
  import opened Base
  import opened Quiz
  import opened QuizProperties

  const DistanceAnswer: string := "\U{221A}13 km (~3.6 km)"

  /** The seventh aptitude question as written: the answer is not among the options. */
  const DistanceAsWritten: Question :=
    Question("A man walks 2 km north, then 3 km east. Distance from start?", ["3 km", "5 km", "6 km"], DistanceAnswer)

  /** The seventh aptitude question with its answer offered. */
  const Distance: Question :=
    Question("A man walks 2 km north, then 3 km east. Distance from start?", ["3 km", "5 km", "6 km", DistanceAnswer], DistanceAnswer)

  /** The first six aptitude questions, whose answers are all among their options. */
  const AptitudeFirstSix: seq<Question> := [
    Question("What is 15 + 35?", ["40", "45", "50"], "50"),
    Question("If 20% of X = 40, find X.", ["100", "150", "200"], "200"),
    Question("The ratio 2:3 is equivalent to?", ["6:9", "4:5", "8:12"], "6:9"),
    Question("Simplify: (12 \U{00D7} 8) \U{00F7} 6", ["14", "16", "18"], "16"),
    Question("What is the average of 10, 20, 30, 40?", ["20", "25", "30"], "25"),
    Question("If simple interest on 2000 in 2 years is 400, rate% is?", ["5%", "10%", "20%"], "10%")
  ]

  const AptitudeAsWritten: seq<Question> := AptitudeFirstSix + [DistanceAsWritten]
  const Aptitude: seq<Question> := AptitudeFirstSix + [Distance]

  lemma FirstSixAnswerable()
    ensures forall i :: 0 <= i < |AptitudeFirstSix| ==> Answerable(AptitudeFirstSix[i])
  {
  }

  /** As written, every submission through the form scores at most 6 of 7. */
  lemma AptitudeAsWrittenNeverFull(selected: seq<Option<string>>)
    requires |selected| == |AptitudeAsWritten| && Offered(AptitudeAsWritten, selected)
    ensures CountCorrect(AptitudeAsWritten, selected) < |AptitudeAsWritten|
  {
    assert AptitudeAsWritten[6] == DistanceAsWritten;
    assert DistanceAnswer !in DistanceAsWritten.options by {
      assert DistanceAnswer[0] == '\U{221A}';
    }
    FullScoreReachableIff(AptitudeAsWritten);
  }

  /** With the answer offered, selecting every answer gives 7 of 7. */
  lemma AptitudeFullReachable()
    ensures exists selected :: |selected| == |Aptitude| && Offered(Aptitude, selected) &&
              CountCorrect(Aptitude, selected) == |Aptitude|
  {
    FirstSixAnswerable();
    assert Aptitude[6] == Distance;
    assert forall i :: 0 <= i < |Aptitude| ==> Answerable(Aptitude[i]);
    FullScoreReachableIff(Aptitude);
  }
}

=== FILE: quiz_properties.dfy ===
/** What the quiz score means, independently of the loop that computes it. */
module QuizProperties {
  import opened Base
  import opened Quiz

  /** The positions whose selection is the answer. */
  function CorrectPositions(questions: seq<Question>, selected: seq<Option<string>>): set<nat>
    requires |selected| == |questions|
  {
    set i: nat | i < |questions| && IsCorrect(questions[i], selected[i])
  }

  /** The score is the number of questions whose checked value is the answer. */
  lemma {:induction false} ScoreCountsCorrect(questions: seq<Question>, selected: seq<Option<string>>)
    requires |selected| == |questions|
    ensures CountCorrect(questions, selected) == |CorrectPositions(questions, selected)|
    decreases |questions|
  {
    if |questions| > 0 {
      var n := |questions| - 1;
      ScoreCountsCorrect(questions[..n], selected[..n]);
      var front := CorrectPositions(questions[..n], selected[..n]);
      var all := CorrectPositions(questions, selected);
      if IsCorrect(questions[n], selected[n]) {
        assert all == front + {n};
      } else {
        assert all == front;
      }
    }
  }

  /**
   * Each question contributes exactly its own match: clearing one selection lowers the score
   * by one when it was correct and leaves it unchanged when it was wrong or missing.
   */
  lemma {:induction false} OneQuestionContributes(questions: seq<Question>, selected: seq<Option<string>>, i: nat)
    requires |selected| == |questions| && i < |questions|
    ensures CountCorrect(questions, selected) ==
              CountCorrect(questions, selected[i := None]) + (if IsCorrect(questions[i], selected[i]) then 1 else 0)
    decreases |questions|
  {
    var n := |questions| - 1;
    if i == n {
      assert selected[i := None][..n] == selected[..n];
    } else {
      assert selected[i := None][..n] == selected[..n][i := None];
      OneQuestionContributes(questions[..n], selected[..n], i);
    }
  }

  /** Full marks exactly when every selection is its question's answer. */
  lemma {:induction false} FullScoreIff(questions: seq<Question>, selected: seq<Option<string>>)
    requires |selected| == |questions|
    ensures CountCorrect(questions, selected) == |questions| <==>
              forall i :: 0 <= i < |questions| ==> IsCorrect(questions[i], selected[i])
    decreases |questions|
  {
    if |questions| > 0 {
      var n := |questions| - 1;
      FullScoreIff(questions[..n], selected[..n]);
      if forall i :: 0 <= i < |questions| ==> IsCorrect(questions[i], selected[i]) {
        assert forall i :: 0 <= i < n ==> IsCorrect(questions[..n][i], selected[..n][i]);
      } else if CountCorrect(questions, selected) == |questions| {
        assert IsCorrect(questions[n], selected[n]);
        assert forall i :: 0 <= i < n ==> IsCorrect(questions[..n][i], selected[..n][i]);
      }
    }
  }

  /** A question whose answer is none of its options: no radio of it can be correct. */
  predicate Answerable(q: Question) {
    q.answer in q.options
  }

  /** Every checked value is one of the options of its question (the form offers only those). */
  predicate Offered(questions: seq<Question>, selected: seq<Option<string>>)
    requires |selected| == |questions|
  {
    forall i :: 0 <= i < |questions| && selected[i].Some? ==> selected[i].value in questions[i].options
  }

  /** Through the form, full marks are reachable exactly when every answer is among its options. */
  lemma FullScoreReachableIff(questions: seq<Question>)
    ensures (exists selected :: |selected| == |questions| && Offered(questions, selected) &&
               CountCorrect(questions, selected) == |questions|)
            <==> forall i :: 0 <= i < |questions| ==> Answerable(questions[i])
  {
    if forall i :: 0 <= i < |questions| ==> Answerable(questions[i]) {
      var answers := seq(|questions|, i requires 0 <= i < |questions| => Some(questions[i].answer));
      FullScoreIff(questions, answers);
      assert Offered(questions, answers);
    } else {
      var k :| 0 <= k < |questions| && !Answerable(questions[k]);
      forall selected | |selected| == |questions| && Offered(questions, selected)
        ensures CountCorrect(questions, selected) < |questions|
      {
        FullScoreIff(questions, selected);
        assert !IsCorrect(questions[k], selected[k]);
      }
    }
  }
}

=== FILE: redact.dfy ===
/**
 * PII redaction of `enhancements/llm_client.py`: the two fixed regular expressions
 *   email  \b[\w\.-]+@[\w\.-]+\.\w+\b
 *   phone  (\+?\d[\d\-\s]{6,}\d)
 * hand-coded as matchers with the leftmost, greedy-with-backtracking choice Python's `re`
 * makes, and `re.sub` as a left-to-right scan that replaces each match and resumes after it.
 */
module Redact {
  import opened Base
  import opened Text

  const EmailPlaceholder: string := "[REDACTED_EMAIL]"
  const PhonePlaceholder: string := "[REDACTED_PHONE]"

  datatype Pattern = Email | Phone

  function Placeholder(k: Pattern): string {
    match k
    case Email => EmailPlaceholder
    case Phone => PhonePlaceholder
  }

  /** `[\w\.-]` */
  predicate IsEmailChar(c: char) {
    IsWordChar(c) || c == '.' || c == '-'
  }

  /** `[\d\-\s]` */
  predicate IsPhoneRunChar(c: char) {
    IsDigit(c) || c == '-' || IsSpace(c)
  }

  datatype Class = EmailPart | Word | PhoneRun

  predicate InClass(k: Class, c: char) {
    match k
    case EmailPart => IsEmailChar(c)
    case Word => IsWordChar(c)
    case PhoneRun => IsPhoneRunChar(c)
  }

  /** End of the longest run of class-`k` characters starting at `i` (a greedy `+` or `*`). */
  function RunEnd(s: string, i: nat, k: Class): (e: nat)
    requires i <= |s|
    ensures i <= e <= |s|
    ensures forall j :: i <= j < e ==> InClass(k, s[j])
    ensures e == |s| || !InClass(k, s[e])
    decreases |s| - i
  {
    if i < |s| && InClass(k, s[i]) then RunEnd(s, i + 1, k) else i
  }

  /** `\b` at position `p`. */
  predicate WordBoundary(s: string, p: nat)
    requires p <= |s|
  {
    (p > 0 && IsWordChar(s[p - 1])) != (p < |s| && IsWordChar(s[p]))
  }

  // ---------------------------------------------------------------- email

  /**
   * `s[p..e]` is a whole match of the email pattern whose '@' sits at `at` and whose
   * last-part dot sits at `dot`: this is what the regular expression means, stated
   * without any search order.
   */
  predicate EmailShape(s: string, p: nat, at: nat, dot: nat, e: nat) {
    && p < at && at + 1 < dot && dot + 1 < e <= |s|
    && WordBoundary(s, p)
    && (forall j :: p <= j < at ==> IsEmailChar(s[j]))
    && s[at] == '@'
    && (forall j :: at < j < dot ==> IsEmailChar(s[j]))
    && s[dot] == '.'
    && (forall j :: dot < j < e ==> IsWordChar(s[j]))
    && WordBoundary(s, e)
  }

  predicate IsTldDot(s: string, m: nat) {
    m + 1 < |s| && s[m] == '.' && IsWordChar(s[m + 1])
  }

  /** The largest `m` in `[lo, hi)` where `\.\w` can start: the order in which backtracking tries them. */
  function LastTldDot(s: string, lo: nat, hi: nat): (r: Option<nat>)
    requires hi <= |s|
    ensures r.Some? ==> lo <= r.value < hi && IsTldDot(s, r.value)
    ensures r.Some? ==> forall m :: r.value < m < hi ==> !IsTldDot(s, m)
    ensures r.None? ==> forall m :: lo <= m < hi ==> !IsTldDot(s, m)
    decreases hi
  {
    if hi <= lo then None
    else if IsTldDot(s, hi - 1) then Some(hi - 1)
    else LastTldDot(s, lo, hi - 1)
  }

  /** Where a match of the email pattern starting at `p` ends, if one starts there. */
  function MatchEmailAt(s: string, p: nat): (r: Option<nat>)
    requires p <= |s|
    ensures r.Some? ==> exists at, dot :: EmailShape(s, p, at, dot, r.value)
  {
    if !WordBoundary(s, p) then None
    else
      var at := RunEnd(s, p, EmailPart);
      if at == p || at == |s| || s[at] != '@' then None
      else
        var domainEnd := RunEnd(s, at + 1, EmailPart);
        match LastTldDot(s, at + 2, domainEnd)
        case None => None
        case Some(dot) =>
          var e := RunEnd(s, dot + 1, Word);
          assert EmailShape(s, p, at, dot, e);
          Some(e)
  }

  // ---------------------------------------------------------------- phone

  /** `s[p..e]` is a whole match of the phone pattern whose first digit sits at `d`. */
  predicate PhoneShape(s: string, p: nat, d: nat, e: nat) {
    && d + 8 <= e <= |s|
    && (d == p || (d == p + 1 && s[p] == '+'))
    && IsDigit(s[d]) && IsDigit(s[e - 1])
    && (forall j :: d < j < e - 1 ==> IsPhoneRunChar(s[j]))
  }

  /** The largest `m` in `[lo, hi)` holding a digit. */
  function LastDigit(s: string, lo: nat, hi: nat): (r: Option<nat>)
    requires hi <= |s|
    ensures r.Some? ==> lo <= r.value < hi && IsDigit(s[r.value])
    ensures r.Some? ==> forall m :: r.value < m < hi ==> !IsDigit(s[m])
    ensures r.None? ==> forall m :: lo <= m < hi ==> !IsDigit(s[m])
    decreases hi
  {
    if hi <= lo then None
    else if IsDigit(s[hi - 1]) then Some(hi - 1)
    else LastDigit(s, lo, hi - 1)
  }

  /** Where a match of the phone pattern starting at `p` ends, if one starts there. */
  function MatchPhoneAt(s: string, p: nat): (r: Option<nat>)
    requires p <= |s|
    ensures r.Some? ==> exists d :: PhoneShape(s, p, d, r.value)
  {
    if p == |s| then None
    else
      var d := if s[p] == '+' then p + 1 else p;
      if d >= |s| || !IsDigit(s[d]) then None
      else
        var runEnd := RunEnd(s, d + 1, PhoneRun);
        match LastDigit(s, d + 7, runEnd)
        case None => None
        case Some(m) =>
          assert PhoneShape(s, p, d, m + 1);
          Some(m + 1)
  }

  // ---------------------------------------------------------------- substitution

  function MatchAt(k: Pattern, s: string, p: nat): (r: Option<nat>)
    requires p <= |s|
    ensures r.Some? ==> p < r.value <= |s|
  {
    match k
    case Email => MatchEmailAt(s, p)
    case Phone => MatchPhoneAt(s, p)
  }

  /**
   * `pattern.sub(placeholder, s)` from position `pos` on: the leftmost match at or after `pos`
   * is replaced and scanning resumes where it ended; `\b` still sees the characters before `pos`.
   */
  function Sub(k: Pattern, s: string, pos: nat): string
    requires pos <= |s|
    decreases |s| - pos
  {
    if pos == |s| then ""
    else
      match MatchAt(k, s, pos)
      case Some(e) => Placeholder(k) + Sub(k, s, e)
      case None => [s[pos]] + Sub(k, s, pos + 1)
  }

  /** The two substitutions of `redact_pii`, email first. */
  function RedactText(s: string): string {
    Sub(Phone, Sub(Email, s, 0), 0)
  }

  /** `redact_pii(text)`: None and "" are returned as they are. */
  function RedactPii(text: Option<string>): (r: Option<string>)
    ensures text.None? || text == Some("") ==> r == text
    ensures text.Some? ==> r.Some?
  {
    match text
    case None => None
    case Some(t) => if t == "" then text else Some(RedactText(t))
  }
}

=== FILE: redact_properties.dfy ===
/** What the redaction of `redact_pii` guarantees, proved about the matchers in module Redact. */
module RedactProperties {
  import opened Base
  import opened Text
  import opened Redact

  /** A greedy run stops exactly at the first character outside its class. */
  lemma {:induction false} RunEndExact(s: string, i: nat, k: Class, e: nat)
    requires i <= e <= |s|
    requires forall j :: i <= j < e ==> InClass(k, s[j])
    requires e == |s| || !InClass(k, s[e])
    ensures RunEnd(s, i, k) == e
    decreases e - i
  {
    if i < e {
      RunEndExact(s, i + 1, k, e);
    }
  }

  /** The email matcher finds a match at `p` exactly when the pattern can match there. */
  lemma EmailMatchIffShape(s: string, p: nat)
    requires p <= |s|
    ensures MatchEmailAt(s, p).Some? <==> exists at, dot, e :: EmailShape(s, p, at, dot, e)
  {
    if at: nat, dot: nat, e: nat :| EmailShape(s, p, at, dot, e) {
      RunEndExact(s, p, EmailPart, at);
      var domainEnd := RunEnd(s, at + 1, EmailPart);
      assert forall j :: at + 1 <= j <= dot ==> InClass(EmailPart, s[j]);
      assert dot < domainEnd;
      assert IsTldDot(s, dot);
    }
  }

  /** The phone matcher finds a match at `p` exactly when the pattern can match there. */
  lemma PhoneMatchIffShape(s: string, p: nat)
    requires p <= |s|
    ensures MatchPhoneAt(s, p).Some? <==> exists d, e :: PhoneShape(s, p, d, e)
  {
    if d: nat, e: nat :| PhoneShape(s, p, d, e) {
      assert d == (if s[p] == '+' then p + 1 else p);
      var runEnd := RunEnd(s, d + 1, PhoneRun);
      assert e - 1 < runEnd;
    }
  }

  lemma ShapeMeansMatch(k: Pattern, s: string, p: nat)
    requires p <= |s|
    requires k == Email ==> exists at, dot, e :: EmailShape(s, p, at, dot, e)
    requires k == Phone ==> exists d, e :: PhoneShape(s, p, d, e)
    ensures MatchAt(k, s, p).Some?
  {
    if k == Email { EmailMatchIffShape(s, p); } else { PhoneMatchIffShape(s, p); }
  }

  // ---------------------------------------------------------------- unchanged text

  /** With no match anywhere from `pos` on, substitution copies the text. */
  lemma {:induction false} SubWithoutMatch(k: Pattern, s: string, pos: nat)
    requires pos <= |s|
    requires forall q :: pos <= q < |s| ==> MatchAt(k, s, q).None?
    ensures Sub(k, s, pos) == s[pos..]
    decreases |s| - pos
  {
    if pos < |s| {
      SubWithoutMatch(k, s, pos + 1);
    }
  }

  function DigitCount(t: string): nat {
    if |t| == 0 then 0 else (if IsDigit(t[0]) then 1 else 0) + DigitCount(t[1..])
  }

  lemma {:induction false} DigitCountConcat(a: string, b: string)
    ensures DigitCount(a + b) == DigitCount(a) + DigitCount(b)
  {
    if |a| > 0 {
      assert (a + b)[1..] == a[1..] + b;
      DigitCountConcat(a[1..], b);
    } else {
      assert a + b == b;
    }
  }

  function AtCount(t: string): nat {
    if |t| == 0 then 0 else (if t[0] == '@' then 1 else 0) + AtCount(t[1..])
  }

  lemma {:induction false} AtCountConcat(a: string, b: string)
    ensures AtCount(a + b) == AtCount(a) + AtCount(b)
  {
    if |a| > 0 {
      assert (a + b)[1..] == a[1..] + b;
      AtCountConcat(a[1..], b);
    } else {
      assert a + b == b;
    }
  }

  lemma {:induction false} NoAtCount(t: string)
    requires forall i :: 0 <= i < |t| ==> t[i] != '@'
    ensures AtCount(t) == 0
  {
    if |t| > 0 {
      NoAtCount(t[1..]);
    }
  }

  lemma {:induction false} AtInside(t: string, i: nat)
    requires i < |t| && t[i] == '@'
    ensures AtCount(t) > 0
  {
    if i > 0 {
      AtInside(t[1..], i - 1);
    }
  }

  lemma {:induction false} DigitInside(t: string, i: nat)
    requires i < |t| && IsDigit(t[i])
    ensures DigitCount(t) > 0
  {
    if i > 0 {
      DigitInside(t[1..], i - 1);
    }
  }

  lemma {:induction false} NoDigitsCount(t: string)
    requires forall i :: 0 <= i < |t| ==> !IsDigit(t[i])
    ensures DigitCount(t) == 0
  {
    if |t| > 0 {
      NoDigitsCount(t[1..]);
    }
  }

  /** The characters the two placeholders are made of. */
  predicate IsPlaceholderChar(c: char) {
    ('A' <= c <= 'Z') || c == '[' || c == ']' || c == '_'
  }

  lemma EmailPlaceholderChars()
    ensures forall i :: 0 <= i < |EmailPlaceholder| ==> IsPlaceholderChar(EmailPlaceholder[i])
  {
  }

  lemma PhonePlaceholderChars()
    ensures forall i :: 0 <= i < |PhonePlaceholder| ==> IsPlaceholderChar(PhonePlaceholder[i])
  {
  }

  lemma PlaceholderChars(k: Pattern)
    ensures forall i :: 0 <= i < |Placeholder(k)| ==> IsPlaceholderChar(Placeholder(k)[i])
  {
    if k == Email { EmailPlaceholderChars(); } else { PhonePlaceholderChars(); }
  }

  lemma {:induction false} PlaceholderCharsClean(t: string)
    requires forall i :: 0 <= i < |t| ==> IsPlaceholderChar(t[i])
    ensures DigitCount(t) == 0 && AtCount(t) == 0
  {
    if |t| > 0 {
      PlaceholderCharsClean(t[1..]);
    }
  }

  /** The placeholders hold neither digits nor '@'. */
  lemma PlaceholderClean(k: Pattern)
    ensures DigitCount(Placeholder(k)) == 0 && AtCount(Placeholder(k)) == 0
  {
    PlaceholderChars(k);
    PlaceholderCharsClean(Placeholder(k));
  }

  lemma EmailMatchHoldsAt(s: string, pos: nat)
    requires pos <= |s| && MatchAt(Email, s, pos).Some?
    ensures AtCount(s[pos..MatchAt(Email, s, pos).value]) > 0
  {
    var e := MatchAt(Email, s, pos).value;
    var at: nat, dot: nat :| EmailShape(s, pos, at, dot, e);
    AtInside(s[pos..e], at - pos);
  }

  lemma PhoneMatchShape(s: string, pos: nat)
    requires pos <= |s| && MatchAt(Phone, s, pos).Some?
    ensures AtCount(s[pos..MatchAt(Phone, s, pos).value]) == 0
    ensures DigitCount(s[pos..MatchAt(Phone, s, pos).value]) > 0
  {
    var e := MatchAt(Phone, s, pos).value;
    var d: nat :| PhoneShape(s, pos, d, e);
    var m := s[pos..e];
    forall j | 0 <= j < |m|
      ensures m[j] != '@'
    {
      assert m[j] == s[pos + j];
    }
    NoAtCount(m);
    DigitInside(m, d - pos);
  }

  lemma SplitAt(s: string, pos: nat, e: nat)
    requires pos <= e <= |s|
    ensures AtCount(s[pos..]) == AtCount(s[pos..e]) + AtCount(s[e..])
    ensures DigitCount(s[pos..]) == DigitCount(s[pos..e]) + DigitCount(s[e..])
  {
    assert s[pos..] == s[pos..e] + s[e..];
    DigitCountConcat(s[pos..e], s[e..]);
    AtCountConcat(s[pos..e], s[e..]);
  }

  lemma CountsAdd(a: string, b: string)
    ensures AtCount(a + b) == AtCount(a) + AtCount(b)
    ensures DigitCount(a + b) == DigitCount(a) + DigitCount(b)
  {
    DigitCountConcat(a, b);
    AtCountConcat(a, b);
  }

  lemma SubStep(k: Pattern, s: string, pos: nat)
    requires pos < |s|
    ensures MatchAt(k, s, pos).Some? ==>
              Sub(k, s, pos) == Placeholder(k) + Sub(k, s, MatchAt(k, s, pos).value)
    ensures MatchAt(k, s, pos).None? ==> Sub(k, s, pos) == [s[pos]] + Sub(k, s, pos + 1)
  {
  }

  /** One replacement step: the placeholder stands where `s[pos..e]` stood. */
  lemma ReplaceStep(k: Pattern, s: string, pos: nat)
    requires pos < |s| && MatchAt(k, s, pos).Some?
    ensures var e := MatchAt(k, s, pos).value;
      && AtCount(Sub(k, s, pos)) + AtCount(s[pos..e]) + AtCount(s[e..])
         == AtCount(Sub(k, s, e)) + AtCount(s[pos..])
      && DigitCount(Sub(k, s, pos)) + DigitCount(s[pos..e]) + DigitCount(s[e..])
         == DigitCount(Sub(k, s, e)) + DigitCount(s[pos..])
  {
    var e := MatchAt(k, s, pos).value;
    SubStep(k, s, pos);
    PlaceholderClean(k);
    CountsAdd(Placeholder(k), Sub(k, s, e));
    SplitAt(s, pos, e);
  }

  /** One copying step: `s[pos]` is kept. */
  lemma CopyStep(k: Pattern, s: string, pos: nat)
    requires pos < |s| && MatchAt(k, s, pos).None?
    ensures AtCount(Sub(k, s, pos)) + AtCount(s[pos + 1..])
            == AtCount(Sub(k, s, pos + 1)) + AtCount(s[pos..])
    ensures DigitCount(Sub(k, s, pos)) + DigitCount(s[pos + 1..])
            == DigitCount(Sub(k, s, pos + 1)) + DigitCount(s[pos..])
  {
    SubStep(k, s, pos);
    CountsAdd([s[pos]], Sub(k, s, pos + 1));
    SplitAt(s, pos, pos + 1);
  }

  /** The email substitution never adds an '@'. */
  lemma {:induction false} EmailSubBoundsAt(s: string, pos: nat)
    requires pos <= |s|
    ensures AtCount(Sub(Email, s, pos)) <= AtCount(s[pos..])
    decreases |s| - pos
  {
    if pos < |s| {
      var r := MatchAt(Email, s, pos);
      if r.Some? {
        EmailSubBoundsAt(s, r.value);
        ReplaceStep(Email, s, pos);
      } else {
        EmailSubBoundsAt(s, pos + 1);
        CopyStep(Email, s, pos);
      }
    }
  }

  /**
   * Each email match removes its '@' and puts none back, so a text with any email match
   * loses at least one '@'.
   */
  lemma {:induction false} EmailSubDropsAt(s: string, pos: nat, q: nat)
    requires pos <= q < |s| && MatchAt(Email, s, q).Some?
    ensures AtCount(Sub(Email, s, pos)) < AtCount(s[pos..])
    decreases |s| - pos
  {
    if MatchAt(Email, s, pos).Some? {
      EmailReplaceDrops(s, pos);
    } else {
      EmailSubDropsAt(s, pos + 1, q);
      CopyStep(Email, s, pos);
    }
  }

  /** Replacing an email match drops its '@', and the rest adds none. */
  lemma EmailReplaceDrops(s: string, pos: nat)
    requires pos < |s| && MatchAt(Email, s, pos).Some?
    ensures AtCount(Sub(Email, s, pos)) < AtCount(s[pos..])
  {
    EmailSubBoundsAt(s, MatchAt(Email, s, pos).value);
    EmailMatchHoldsAt(s, pos);
    ReplaceStep(Email, s, pos);
  }

  /** A phone match holds no '@', so the phone substitution keeps every '@'. */
  lemma {:induction false} PhoneSubKeepsAt(s: string, pos: nat)
    requires pos <= |s|
    ensures AtCount(Sub(Phone, s, pos)) == AtCount(s[pos..])
    decreases |s| - pos
  {
    if pos < |s| {
      var r := MatchAt(Phone, s, pos);
      if r.Some? {
        PhoneSubKeepsAt(s, r.value);
        PhoneMatchShape(s, pos);
        ReplaceStep(Phone, s, pos);
      } else {
        PhoneSubKeepsAt(s, pos + 1);
        CopyStep(Phone, s, pos);
      }
    }
  }

  /** The phone substitution never adds a digit. */
  lemma {:induction false} PhoneSubBoundsDigits(s: string, pos: nat)
    requires pos <= |s|
    ensures DigitCount(Sub(Phone, s, pos)) <= DigitCount(s[pos..])
    decreases |s| - pos
  {
    if pos < |s| {
      var r := MatchAt(Phone, s, pos);
      if r.Some? {
        PhoneSubBoundsDigits(s, r.value);
        ReplaceStep(Phone, s, pos);
      } else {
        PhoneSubBoundsDigits(s, pos + 1);
        CopyStep(Phone, s, pos);
      }
    }
  }

  /**
   * Each phone match removes its digits and puts none back, so a text with any phone match
   * loses at least one digit.
   */
  lemma {:induction false} PhoneSubDropsDigits(s: string, pos: nat, q: nat)
    requires pos <= q < |s| && MatchAt(Phone, s, q).Some?
    ensures DigitCount(Sub(Phone, s, pos)) < DigitCount(s[pos..])
    decreases |s| - pos
  {
    if MatchAt(Phone, s, pos).Some? {
      PhoneReplaceDrops(s, pos);
    } else {
      PhoneSubDropsDigits(s, pos + 1, q);
      CopyStep(Phone, s, pos);
    }
  }

  /** Replacing a phone match drops its digits, and the rest adds none. */
  lemma PhoneReplaceDrops(s: string, pos: nat)
    requires pos < |s| && MatchAt(Phone, s, pos).Some?
    ensures DigitCount(Sub(Phone, s, pos)) < DigitCount(s[pos..])
  {
    PhoneSubBoundsDigits(s, MatchAt(Phone, s, pos).value);
    PhoneMatchShape(s, pos);
    ReplaceStep(Phone, s, pos);
  }

  ghost predicate HasMatch(k: Pattern, s: string) {
    exists q :: 0 <= q < |s| && MatchAt(k, s, q).Some?
  }

  /**
   * `redact_pii` returns its text unchanged exactly when the text holds no email match and
   * no phone match.
   */
  lemma RedactUnchangedIff(s: string)
    ensures RedactText(s) == s <==> !HasMatch(Email, s) && !HasMatch(Phone, s)
  {
    var mid := Sub(Email, s, 0);
    assert s[0..] == s;
    assert mid[0..] == mid;
    if !HasMatch(Email, s) && !HasMatch(Phone, s) {
      SubWithoutMatch(Email, s, 0);
      SubWithoutMatch(Phone, s, 0);
    } else if HasMatch(Email, s) {
      var q :| 0 <= q < |s| && MatchAt(Email, s, q).Some?;
      EmailSubDropsAt(s, 0, q);
      PhoneSubKeepsAt(mid, 0);
    } else {
      SubWithoutMatch(Email, s, 0);
      var q :| 0 <= q < |s| && MatchAt(Phone, s, q).Some?;
      PhoneSubDropsDigits(s, 0, q);
    }
  }

  // ---------------------------------------------------------------- no phone survives

  /** Shapes found past a prefix `a` are shapes of the rest `b`. */
  lemma ShapeShift(a: string, b: string, p: nat, d: nat, e: nat)
    requires |a| <= p <= d <= e
    ensures PhoneShape(a + b, p, d, e) <==> PhoneShape(b, p - |a|, d - |a|, e - |a|)
  {
    var t := a + b;
    assert forall j :: |a| <= j < |t| ==> t[j] == b[j - |a|];
    assert forall j :: 0 <= j < |b| ==> b[j] == t[j + |a|];
  }

  /** No phone shape can start inside a placeholder. */
  lemma NoShapeFromPlaceholder(k: Pattern, rest: string, p: nat, d: nat, e: nat)
    requires p < |Placeholder(k)|
    ensures !PhoneShape(Placeholder(k) + rest, p, d, e)
  {
    var P := Placeholder(k);
    var t := P + rest;
    PlaceholderChars(k);
    if d < |P| {
      assert t[d] == P[d];
    } else if d == |P| && p + 1 == d {
      assert t[p] == P[p];
    }
  }

  /** Where a match was replaced, the output starts with a placeholder character. */
  lemma ReplacedStartsWithPlaceholder(s: string, q: nat)
    requires q < |s| && MatchAt(Phone, s, q).Some?
    ensures |Sub(Phone, s, q)| > 0 && IsPlaceholderChar(Sub(Phone, s, q)[0])
  {
    SubStep(Phone, s, q);
    PlaceholderChars(Phone);
  }

  /**
   * Where the phone substitution copied text, the copied run of phone characters is the
   * original text: a placeholder never continues a run.
   */
  lemma {:induction false} PhoneCopiedPrefix(s: string, q: nat, n: nat)
    requires q <= |s|
    requires n <= |Sub(Phone, s, q)|
    requires forall j :: 0 <= j < n ==> IsPhoneRunChar(Sub(Phone, s, q)[j])
    ensures q + n <= |s|
    ensures forall j :: 0 <= j < n ==> Sub(Phone, s, q)[j] == s[q + j]
    decreases n
  {
    if n > 0 {
      CopiedRunTail(s, q, n);
      PhoneCopiedPrefix(s, q + 1, n - 1);
      CopiedRunJoin(s, q, n);
    }
  }

  /** Past a copied phone character, the rest of the run is a run of the rest of the output. */
  lemma CopiedRunTail(s: string, q: nat, n: nat)
    requires q <= |s| && 0 < n <= |Sub(Phone, s, q)|
    requires forall j :: 0 <= j < n ==> IsPhoneRunChar(Sub(Phone, s, q)[j])
    ensures q < |s| && n - 1 <= |Sub(Phone, s, q + 1)|
    ensures var rest := Sub(Phone, s, q + 1); forall j :: 0 <= j < n - 1 ==> IsPhoneRunChar(rest[j])
  {
    CopiedFront(s, q);
    TailRunChars(Sub(Phone, s, q), s[q], Sub(Phone, s, q + 1), n);
  }

  /** A copied character followed by a run that agrees with the original agrees with it. */
  lemma CopiedRunJoin(s: string, q: nat, n: nat)
    requires q <= |s| && 0 < n <= |Sub(Phone, s, q)|
    requires IsPhoneRunChar(Sub(Phone, s, q)[0])
    requires q + n <= |s| && n - 1 <= |Sub(Phone, s, q + 1)|
    requires var rest := Sub(Phone, s, q + 1); forall j :: 0 <= j < n - 1 ==> rest[j] == s[q + 1 + j]
    ensures forall j :: 0 <= j < n ==> Sub(Phone, s, q)[j] == s[q + j]
  {
    CopiedFront(s, q);
    ConsAgrees(s, q, Sub(Phone, s, q + 1), Sub(Phone, s, q), n);
  }

  /** An output that starts with a phone character starts with a copied character. */
  lemma CopiedFront(s: string, q: nat)
    requires q <= |s|
    requires |Sub(Phone, s, q)| > 0 && IsPhoneRunChar(Sub(Phone, s, q)[0])
    ensures q < |s| && Sub(Phone, s, q) == [s[q]] + Sub(Phone, s, q + 1)
  {
    if MatchAt(Phone, s, q).Some? {
      ReplacedStartsWithPlaceholder(s, q);
    }
    SubStep(Phone, s, q);
  }

  /** A shape depends only on the characters it covers. */
  lemma ShapeTransfer(t: string, u: string, off: nat, d: nat, e: nat)
    requires PhoneShape(t, 0, d, e)
    requires off + e <= |u|
    requires forall j :: 0 <= j < e ==> t[j] == u[off + j]
    ensures PhoneShape(u, off, off + d, off + e)
  {
    forall j | off + d < j < off + e - 1
      ensures IsPhoneRunChar(u[j])
    {
      assert u[j] == t[j - off];
    }
  }

  /** Past its first character, a shape consists of `[\d\-\s]` characters. */
  lemma ShapeTailRunChars(t: string, d: nat, e: nat)
    requires PhoneShape(t, 0, d, e)
    ensures forall j :: 1 <= j < e ==> IsPhoneRunChar(t[j])
  {
  }

  /** The copied text agrees with the original as far as it runs through phone characters. */
  lemma CopiedAgrees(s: string, pos: nat, t: string, e: nat)
    requires pos < |s|
    requires t == [s[pos]] + Sub(Phone, s, pos + 1)
    requires 1 <= e <= |t|
    requires forall j :: 1 <= j < e ==> IsPhoneRunChar(t[j])
    ensures pos + e <= |s|
    ensures forall j :: 0 <= j < e ==> t[j] == s[pos + j]
  {
    var rest := Sub(Phone, s, pos + 1);
    TailRunChars(t, s[pos], rest, e);
    PhoneCopiedPrefix(s, pos + 1, e - 1);
    ConsAgrees(s, pos, rest, t, e);
  }

  /** The phone characters of `[c] + rest` past its head are phone characters of `rest`. */
  lemma TailRunChars(t: string, c: char, rest: string, n: nat)
    requires t == [c] + rest && 1 <= n <= |t|
    requires forall j :: 1 <= j < n ==> IsPhoneRunChar(t[j])
    ensures forall j :: 0 <= j < n - 1 ==> IsPhoneRunChar(rest[j])
  {
    forall j | 0 <= j < n - 1
      ensures IsPhoneRunChar(rest[j])
    {
      assert rest[j] == t[j + 1];
    }
  }

  lemma ConsAgrees(s: string, pos: nat, rest: string, t: string, e: nat)
    requires pos < |s| && t == [s[pos]] + rest && 1 <= e <= |t| && pos + e <= |s|
    requires forall j :: 0 <= j < e - 1 ==> rest[j] == s[pos + 1 + j]
    ensures forall j :: 0 <= j < e ==> t[j] == s[pos + j]
  {
    forall j | 0 <= j < e
      ensures t[j] == s[pos + j]
    {
      if j > 0 {
        assert t[j] == rest[j - 1];
      }
    }
  }

  /** A shape at the front of a copied character would have been a match in the original. */
  lemma CopiedShapeIsOriginal(s: string, pos: nat, d: nat, e: nat)
    requires pos < |s| && MatchAt(Phone, s, pos).None?
    ensures PhoneShape([s[pos]] + Sub(Phone, s, pos + 1), 0, d, e) ==>
              PhoneShape(s, pos, pos + d, pos + e)
  {
    var t := [s[pos]] + Sub(Phone, s, pos + 1);
    if PhoneShape(t, 0, d, e) {
      ShapeTailRunChars(t, d, e);
      CopiedAgrees(s, pos, t, e);
      ShapeTransfer(t, s, pos, d, e);
    }
  }

  /** The output of the phone substitution holds no phone shape at all. */
  lemma {:induction false} NoPhoneShapeAfterSub(s: string, pos: nat)
    requires pos <= |s|
    ensures forall p, d, e :: !PhoneShape(Sub(Phone, s, pos), p, d, e)
    decreases |s| - pos
  {
    var t := Sub(Phone, s, pos);
    if pos < |s| {
      SubStep(Phone, s, pos);
      var r := MatchAt(Phone, s, pos);
      if r.Some? {
        var rest := Sub(Phone, s, r.value);
        NoPhoneShapeAfterSub(s, r.value);
        forall p: nat, d: nat, e: nat
          ensures !PhoneShape(t, p, d, e)
        {
          if p < |Placeholder(Phone)| {
            NoShapeFromPlaceholder(Phone, rest, p, d, e);
          } else if p <= d <= e {
            ShapeShift(Placeholder(Phone), rest, p, d, e);
          }
        }
      } else {
        var rest := Sub(Phone, s, pos + 1);
        NoPhoneShapeAfterSub(s, pos + 1);
        PhoneMatchIffShape(s, pos);
        forall p: nat, d: nat, e: nat
          ensures !PhoneShape(t, p, d, e)
        {
          if p == 0 {
            CopiedShapeIsOriginal(s, pos, d, e);
          } else if p <= d <= e {
            ShapeShift([s[pos]], rest, p, d, e);
          }
        }
      }
    }
  }

  /**
   * After `redact_pii` no substring matches the phone pattern, and the phone matcher
   * finds nothing anywhere.
   */
  lemma RedactLeavesNoPhone(s: string)
    ensures forall p, d, e :: !PhoneShape(RedactText(s), p, d, e)
    ensures forall p :: 0 <= p <= |RedactText(s)| ==> MatchPhoneAt(RedactText(s), p).None?
  {
    var t := RedactText(s);
    NoPhoneShapeAfterSub(Sub(Email, s, 0), 0);
    forall p | 0 <= p <= |t|
      ensures MatchPhoneAt(t, p).None?
    {
      PhoneMatchIffShape(t, p);
    }
  }

  // ---------------------------------------------------------------- email before phone

  /** A placeholder holds no match of either pattern. */
  lemma PlaceholderUntouched(k: Pattern, j: Pattern)
    ensures Sub(j, Placeholder(k), 0) == Placeholder(k)
  {
    var P := Placeholder(k);
    PlaceholderChars(k);
    assert forall i :: 0 <= i < |P| ==> P[i] != '@';
    NoAtNoEmail(P);
    SubWithoutMatch(j, P, 0);
  }

  /** An email match that runs to the end of the text is the match the matcher picks. */
  lemma WholeEmail(s: string, at: nat, dot: nat)
    requires EmailShape(s, 0, at, dot, |s|)
    ensures MatchEmailAt(s, 0) == Some(|s|)
  {
    RunEndExact(s, 0, EmailPart, at);
    RunEndExact(s, at + 1, EmailPart, |s|);
    RunEndExact(s, dot + 1, Word, |s|);
    assert IsTldDot(s, dot);
    assert forall m :: dot < m < |s| ==> !IsTldDot(s, m);
    assert LastTldDot(s, at + 2, |s|) == Some(dot);
  }

  /**
   * Email substitution runs first: an address is replaced whole by the email placeholder,
   * digits and all, and the phone pass then finds nothing left to replace.
   */
  lemma EmailAbsorbsDigits(s: string, at: nat, dot: nat)
    requires EmailShape(s, 0, at, dot, |s|)
    ensures RedactText(s) == EmailPlaceholder
  {
    WholeEmail(s, at, dot);
    SubStep(Email, s, 0);
    assert Sub(Email, s, 0) == EmailPlaceholder;
    PlaceholderUntouched(Email, Phone);
  }

  /** A phone match that runs to the end of the text is the match the matcher picks. */
  lemma WholePhone(s: string, d: nat)
    requires PhoneShape(s, 0, d, |s|)
    ensures MatchPhoneAt(s, 0) == Some(|s|)
  {
    RunEndExact(s, d + 1, PhoneRun, |s|);
  }

  /** Without an '@' there is no email match. */
  lemma NoAtNoEmail(s: string)
    requires forall i :: 0 <= i < |s| ==> s[i] != '@'
    ensures forall q :: 0 <= q < |s| ==> MatchAt(Email, s, q).None?
  {
    forall q | 0 <= q < |s|
      ensures MatchAt(Email, s, q).None?
    {
      EmailMatchIffShape(s, q);
    }
  }

  /** A whole phone number, with no '@' in it, becomes the phone placeholder. */
  lemma WholePhoneRedacted(s: string, d: nat)
    requires PhoneShape(s, 0, d, |s|)
    requires forall i :: 0 <= i < |s| ==> s[i] != '@'
    ensures RedactText(s) == PhonePlaceholder
  {
    NoAtNoEmail(s);
    SubWithoutMatch(Email, s, 0);
    assert Sub(Email, s, 0) == s;
    WholePhone(s, d);
    SubStep(Phone, s, 0);
  }

  /** A plain email address becomes the email placeholder. */
  lemma EmailExample()
    ensures RedactText("alice@example.com") == EmailPlaceholder
  {
    var email := "alice@example.com";
    assert forall j :: 0 <= j < 5 ==> IsEmailChar(email[j]);
    assert forall j :: 5 < j < 13 ==> IsEmailChar(email[j]);
    assert forall j :: 13 < j < 17 ==> IsWordChar(email[j]);
    assert EmailShape(email, 0, 5, 13, |email|);
    EmailAbsorbsDigits(email, 5, 13);
  }

  /** An international phone number with spaces and dashes becomes the phone placeholder. */
  lemma PhoneExample()
    ensures RedactText("+1 555-123-4567") == PhonePlaceholder
  {
    var phone := "+1 555-123-4567";
    assert forall j :: 1 < j < 14 ==> IsPhoneRunChar(phone[j]);
    assert PhoneShape(phone, 0, 1, |phone|);
    assert forall i :: 0 <= i < |phone| ==> phone[i] != '@';
    WholePhoneRedacted(phone, 1);
  }
}

=== FILE: routes.dfy ===
/**
 * The account and application routes of `enhancements/routes.py`, as transitions of the
 * in-memory tables of a `Store`. Each route returns what it tells the user and the store it
 * leaves behind. The session is the optional `user_id` stored in it; form fields are
 * optional strings (absent fields are `None`); `secure_filename` is a parameter, and the
 * one-off values a route computes from the clock, the password hasher or the resume analyser
 * are parameters too.
 */
module Routes {
  import opened Base
  import opened Text
  import opened Schema
  import opened Uploads

  /** What a route reports, and the tables after it. */
  datatype Step<O> = Step(outcome: O, store: Store)

  /** Python truthiness of `session.get("user_id")`. */
  predicate LoggedIn(session: Option<int>) {
    session.Some? && session.value != 0
  }

  // ----- register -----

  datatype RegisterForm = RegisterForm(
    username: Option<string>, email: Option<string>, password: Option<string>, role: Option<string>)

  datatype RegisterOutcome = MissingFields | AlreadyExists | Registered(id: nat)

  predicate UsernameTaken(users: seq<User>, name: string) {
    exists i :: 0 <= i < |users| && users[i].username == name
  }

  predicate EmailTaken(users: seq<User>, email: string) {
    exists i :: 0 <= i < |users| && users[i].email == email
  }

  /**
   * `register()` on POST. `hashed` is what `generate_password_hash` returned for this call.
   * The INSERT fails with an IntegrityError, reported as "already exists", when the username
   * or email is taken or the role breaks the CHECK constraint.
   */
  function Register(st: Store, form: RegisterForm, hashed: string): (r: Step<RegisterOutcome>)
    ensures var username := Strip(form.username.GetOr(""));
            var email := Strip(form.email.GetOr(""));
            var password := form.password.GetOr("");
            && (r.outcome == MissingFields <==> username == "" || email == "" || password == "")
            && (r.outcome.Registered? <==>
                  && username != "" && email != "" && password != ""
                  && !UsernameTaken(st.users, username) && !EmailTaken(st.users, email)
                  && ParseRole(form.role.GetOr("student")).Some?)
            && (r.outcome.Registered? ==>
                  && r.outcome.id == st.nextUser
                  && r.store.users == st.users + [User(st.nextUser, username, email, hashed,
                       ParseRole(form.role.GetOr("student")).value, None, None, None, None)]
                  && r.store.nextUser == st.nextUser + 1
                  && r.store.(users := st.users, nextUser := st.nextUser) == st)
    ensures !r.outcome.Registered? ==> r.store == st
  {
    var username := Strip(form.username.GetOr(""));
    var email := Strip(form.email.GetOr(""));
    var password := form.password.GetOr("");
    var role := ParseRole(form.role.GetOr("student"));
    if username == "" || email == "" || password == "" then Step(MissingFields, st)
    else if UsernameTaken(st.users, username) || EmailTaken(st.users, email) || role.None? then
      Step(AlreadyExists, st)
    else
      var user := User(st.nextUser, username, email, hashed, role.value, None, None, None, None);
      Step(Registered(st.nextUser), st.(users := st.users + [user], nextUser := st.nextUser + 1))
  }

  // ----- apply -----

  datatype ApplyOutcome = LoginRequired | AlreadyApplied | Submitted(id: nat)

  /** Some application of `user` for placement `pid` exists. */
  predicate HasApplied(apps: seq<Application>, user: int, pid: int) {
    exists i :: 0 <= i < |apps| && apps[i].userId == user && apps[i].placementId == pid
  }

  /** `apply(pid)`: the session's user applies for placement `pid` unless already applied. */
  function Apply(st: Store, session: Option<int>, pid: int): (r: Step<ApplyOutcome>)
    ensures session.None? <==> r.outcome == LoginRequired
    ensures r.outcome == AlreadyApplied <==> session.Some? && HasApplied(st.applications, session.value, pid)
    ensures !r.outcome.Submitted? ==> r.store == st
    ensures r.outcome.Submitted? ==>
              && r.outcome.id == st.nextApplication
              && r.store.applications
                 == st.applications + [Application(st.nextApplication, session.value, pid, Applied)]
              && r.store.nextApplication == st.nextApplication + 1
              && r.store.(applications := st.applications, nextApplication := st.nextApplication) == st
  {
    match session
    case None => Step(LoginRequired, st)
    case Some(user) =>
      if HasApplied(st.applications, user, pid) then Step(AlreadyApplied, st)
      else
        var app := Application(st.nextApplication, user, pid, Applied);
        Step(Submitted(st.nextApplication),
             st.(applications := st.applications + [app], nextApplication := st.nextApplication + 1))
  }

  // ----- update_status -----

  datatype StatusOutcome = InvalidStatus | StatusUpdated

  /** `UPDATE applications SET status = ? WHERE id = ?`. */
  function SetStatus(apps: seq<Application>, appId: int, status: Status): (r: seq<Application>)
    ensures |r| == |apps|
    ensures forall i :: 0 <= i < |apps| && apps[i].id != appId ==> r[i] == apps[i]
    ensures forall i :: 0 <= i < |apps| && apps[i].id == appId ==> r[i] == apps[i].(status := status)
  {
    seq(|apps|, i requires 0 <= i < |apps| => if apps[i].id == appId then apps[i].(status := status) else apps[i])
  }

  /**
   * `update_status(app_id)`: a status outside the four names changes nothing; otherwise only
   * the status of the application with id `app_id` changes, if there is one.
   */
  function UpdateStatus(st: Store, status: Option<string>, appId: int): (r: Step<StatusOutcome>)
    ensures r.outcome == StatusUpdated <==>
              status.Some? && status.value in ["Applied", "Shortlisted", "Selected", "Rejected"]
    ensures r.outcome == InvalidStatus ==> r.store == st
    ensures r.outcome == StatusUpdated ==>
              r.store == st.(applications := SetStatus(st.applications, appId, ParseStatus(status.value).value))
  {
    match status
    case None => Step(InvalidStatus, st)
    case Some(name) =>
      match ParseStatus(name)
      case None => Step(InvalidStatus, st)
      case Some(s) => Step(StatusUpdated, st.(applications := SetStatus(st.applications, appId, s)))
  }

  // ----- rate -----

  /**
   * The `rating` form field after `int(request.form.get("rating", 0))`: absent (read as 0),
   * a string `int()` accepts, or one it rejects with ValueError.
   */
  datatype IntField = Missing | Parsed(value: int) | Unparseable

  datatype RateOutcome = ServerError | LoginToRate | Thanks(id: nat) | InvalidRating

  /**
   * `rate()` on POST. The rating is converted before the session is looked at, so an
   * unparseable rating fails the request even for a visitor who is not logged in.
   */
  function Rate(st: Store, session: Option<int>, rating: IntField, comment: Option<string>): (r: Step<RateOutcome>)
    ensures r.outcome == ServerError <==> rating == Unparseable
    ensures r.outcome == LoginToRate <==> rating != Unparseable && !LoggedIn(session)
    ensures r.outcome.Thanks? <==> LoggedIn(session) && rating.Parsed? && 1 <= rating.value <= 5
    ensures !r.outcome.Thanks? ==> r.store == st
    ensures r.outcome.Thanks? ==>
              && r.outcome.id == st.nextFeedback
              && r.store.feedback
                 == st.feedback + [Feedback(st.nextFeedback, session.value, rating.value, Strip(comment.GetOr("")))]
              && r.store.nextFeedback == st.nextFeedback + 1
              && r.store.(feedback := st.feedback, nextFeedback := st.nextFeedback) == st
  {
    if rating == Unparseable then Step(ServerError, st)
    else
      var value := if rating.Parsed? then rating.value else 0;
      if !LoggedIn(session) then Step(LoginToRate, st)
      else if 1 <= value <= 5 then
        var fb := Feedback(st.nextFeedback, session.value, value, Strip(comment.GetOr("")));
        Step(Thanks(st.nextFeedback), st.(feedback := st.feedback + [fb], nextFeedback := st.nextFeedback + 1))
      else Step(InvalidRating, st)
  }

  // ----- resume_review -----

  /** What `analyze_resume` returned: its `verdict` entry and the JSON text of the whole result. */
  datatype Analysis = Analysis(verdict: Option<string>, details: string)

  datatype ReviewOutcome = NoFileSelected | TypeNotAllowed | Reviewed(id: nat, path: string)

  /** The upload is present and has a non-empty filename (`FileStorage` is falsy otherwise). */
  predicate HasFile(upload: Option<string>) {
    upload.Some? && upload.value != ""
  }

  /**
   * `resume_review()` on POST. `upload` is the filename of the `resume` file field; `folder`
   * is the upload folder and `stamp` the decimal UTC timestamp of the request.
   */
  function ResumeReview(st: Store, session: Option<int>, upload: Option<string>, secure: string -> string,
                        folder: string, stamp: string, analysis: Analysis): (r: Step<ReviewOutcome>)
    ensures r.outcome == NoFileSelected <==> !HasFile(upload)
    ensures r.outcome == TypeNotAllowed <==> HasFile(upload) && !AllowedFile(secure(upload.value))
    ensures !r.outcome.Reviewed? ==> r.store == st
    ensures r.outcome.Reviewed? ==>
              var name := secure(upload.value);
              && AllowedFile(name)
              && r.outcome.path == Join(folder, stamp + "_" + name)
              && r.store.resumes == st.resumes + [Resume(st.nextResume, session, name, r.outcome.path,
                                                         analysis.verdict, analysis.details)]
              && r.store.nextResume == st.nextResume + 1
              && r.store.(resumes := st.resumes, nextResume := st.nextResume) == st
  {
    if !HasFile(upload) then Step(NoFileSelected, st)
    else
      var name := secure(upload.value);
      if !AllowedFile(name) then Step(TypeNotAllowed, st)
      else
        var path := Join(folder, stamp + "_" + name);
        var row := Resume(st.nextResume, session, name, path, analysis.verdict, analysis.details);
        Step(Reviewed(st.nextResume, path), st.(resumes := st.resumes + [row], nextResume := st.nextResume + 1))
  }

  // ----- profile -----

  datatype ProfileForm = ProfileForm(
    username: Option<string>, email: Option<string>, phone: Option<string>, skills: Option<string>)

  /** The two file fields of the profile form. */
  datatype ProfileField = PictureField | ResumeField

  datatype ProfileOutcome = ProfileLoginRequired | ProfileSaveFailed(field: ProfileField) | ProfileConflict | ProfileUpdated

  /** The stored name of an uploaded file: `secure_filename(name)` when a file with a name came. */
  function StoredName(upload: Option<string>, secure: string -> string): (r: Option<string>)
    ensures r.Some? <==> HasFile(upload)
  {
    if HasFile(upload) then Some(secure(upload.value)) else None
  }

  /**
   * Saving the upload fails: a file with a name came, but its secured name is empty, so
   * `file.save(os.path.join(folder, ""))` opens the folder itself and raises.
   */
  predicate SaveFails(upload: Option<string>, secure: string -> string) {
    HasFile(upload) && secure(upload.value) == ""
  }

  /** SQL's variadic `COALESCE(v1, v2, ...)`: the first argument that is not NULL, else NULL. */
  function FirstNonNull(vals: seq<Option<string>>): (r: Option<string>)
    ensures r.None? <==> forall i :: 0 <= i < |vals| ==> vals[i].None?
    ensures r.Some? ==> exists i :: 0 <= i < |vals| && vals[i] == r && forall j :: 0 <= j < i ==> vals[j].None?
  {
    if |vals| == 0 then None
    else if vals[0].Some? then vals[0]
    else FirstNonNull(vals[1..])
  }

  /** The two-argument `COALESCE(new, old)` of the profile UPDATE. */
  function Coalesce(given: Option<string>, current: Option<string>): (r: Option<string>)
    ensures r == FirstNonNull([given, current])
  {
    if given.Some? then given else current
  }

  /** The row of user `u` after the UPDATE of `profile()`. */
  function Edited(u: User, form: ProfileForm, pic: Option<string>, resume: Option<string>): User {
    u.(username := Strip(form.username.GetOr("")), email := Strip(form.email.GetOr("")),
       phone := Some(Strip(form.phone.GetOr(""))), skills := Some(Strip(form.skills.GetOr(""))),
       profilePic := Coalesce(pic, u.profilePic), resume := Coalesce(resume, u.resume))
  }

  /** Some user row has id `id`. */
  predicate HasUser(users: seq<User>, id: int) {
    exists i :: 0 <= i < |users| && users[i].id == id
  }

  /** Another user than `id` already holds the username or the email. */
  predicate ClashesWithOther(users: seq<User>, id: int, username: string, email: string) {
    exists i :: 0 <= i < |users| && users[i].id != id && (users[i].username == username || users[i].email == email)
  }

  /** The UPDATE applied to the rows whose id is `id`. */
  function EditUsers(users: seq<User>, id: int, form: ProfileForm, pic: Option<string>, resume: Option<string>): (r: seq<User>)
    ensures |r| == |users|
    ensures forall i :: 0 <= i < |users| && users[i].id != id ==> r[i] == users[i]
    ensures forall i :: 0 <= i < |users| && users[i].id == id ==> r[i] == Edited(users[i], form, pic, resume)
  {
    seq(|users|, i requires 0 <= i < |users| => if users[i].id == id then Edited(users[i], form, pic, resume) else users[i])
  }

  /**
   * `profile()` on POST. `picUpload` and `resumeUpload` are the filenames of the two file
   * fields. Both files are saved before the UPDATE, the picture first; a save that raises
   * ends the request before the database is touched. A username or email another user
   * holds breaks the UNIQUE constraints; that IntegrityError is not caught either, so the
   * request fails and nothing changes.
   */
  function UpdateProfile(st: Store, session: Option<int>, form: ProfileForm,
                         picUpload: Option<string>, resumeUpload: Option<string>,
                         secure: string -> string): (r: Step<ProfileOutcome>)
    ensures session.None? <==> r.outcome == ProfileLoginRequired
    ensures r.outcome == ProfileSaveFailed(PictureField) <==> session.Some? && SaveFails(picUpload, secure)
    ensures r.outcome == ProfileSaveFailed(ResumeField) <==>
              session.Some? && !SaveFails(picUpload, secure) && SaveFails(resumeUpload, secure)
    ensures r.outcome == ProfileConflict <==>
              && session.Some? && !SaveFails(picUpload, secure) && !SaveFails(resumeUpload, secure)
              && HasUser(st.users, session.value)
              && ClashesWithOther(st.users, session.value, Strip(form.username.GetOr("")), Strip(form.email.GetOr("")))
    ensures r.outcome != ProfileUpdated ==> r.store == st
    ensures r.outcome == ProfileUpdated ==>
              && StoredName(picUpload, secure) != Some("") && StoredName(resumeUpload, secure) != Some("")
              && r.store == st.(users := EditUsers(st.users, session.value, form,
                                                   StoredName(picUpload, secure), StoredName(resumeUpload, secure)))
  {
    match session
    case None => Step(ProfileLoginRequired, st)
    case Some(id) =>
      if SaveFails(picUpload, secure) then Step(ProfileSaveFailed(PictureField), st)
      else if SaveFails(resumeUpload, secure) then Step(ProfileSaveFailed(ResumeField), st)
      else
        var username := Strip(form.username.GetOr(""));
        var email := Strip(form.email.GetOr(""));
        if HasUser(st.users, id) && ClashesWithOther(st.users, id, username, email) then Step(ProfileConflict, st)
        else
          var pic := StoredName(picUpload, secure);
          var resume := StoredName(resumeUpload, secure);
          Step(ProfileUpdated, st.(users := EditUsers(st.users, id, form, pic, resume)))
  }

  // ----- api_search_placements -----

  const SnippetLength: nat := 120
  const Ellipsis: string := "..."

  /**
   * The `description` entry of a search result: the first 120 characters and "..." when the
   * stored description is non-empty, even when it is shorter; "" when it is empty or NULL.
   */
  function Snippet(description: Option<string>): (r: string)
    ensures description.None? || description == Some("") ==> r == ""
    ensures description.Some? && description.value != "" ==>
              && |r| == Min(|description.value|, SnippetLength) + |Ellipsis|
              && r[..|r| - |Ellipsis|] <= description.value
              && r[|r| - |Ellipsis|..] == Ellipsis
  {
    match description
    case None => ""
    case Some(d) => if d == "" then "" else Take(d, SnippetLength) + Ellipsis
  }

  datatype SearchResult = SearchResult(id: nat, title: string, company: string, description: string)

  /** Why SQLite refuses to compile a statement. */
  datatype SqlError = NoSuchTable(table: Table) | NoSuchColumn(column: Column)

  datatype SearchResponse = Results(results: seq<SearchResult>) | Failed(error: SqlError)

  /** The first of `wanted` that `cols` lacks. */
  function FirstMissing(cols: seq<Column>, wanted: seq<Column>): (r: Option<Column>)
    ensures r.None? <==> forall c :: c in wanted ==> c in cols
    ensures r.Some? ==> r.value in wanted && r.value !in cols
    decreases |wanted|
  {
    if |wanted| == 0 then None
    else if wanted[0] !in cols then Some(wanted[0])
    else FirstMissing(cols, wanted[1..])
  }

  /** SQLite's compile step for a statement reading `wanted` from table `t`. */
  function Compile(cat: Catalog, t: Table, wanted: seq<Column>): (r: Option<SqlError>)
    ensures r.None? <==> t in cat && forall c :: c in wanted ==> c in cat[t]
  {
    if t !in cat then Some(NoSuchTable(t))
    else
      match FirstMissing(cat[t], wanted)
      case Some(c) => Some(NoSuchColumn(c))
      case None => None
  }

  /** The `title` column the endpoint's query names; no schema of the portal declares it. */
  const TitleColumn: Column := OtherColumn("title")

  /** The columns the query of `api_search_placements` reads, as written. */
  const SearchColumnsAsWritten: seq<Column> := [Id, TitleColumn, Company, Description]

  /**
   * `api_search_placements()` as written: the statement names `title`, so it fails to
   * compile on any `placements` table without that column. The answering branch is kept
   * only for catalogues that do have `title`, which `init_db` never produces
   * (`SearchAsWrittenAlwaysFails`); there it answers like the corrected query below, since
   * `Placement` has no field for a `title` column to filter on.
   */
  function SearchAsWritten(cat: Catalog, st: Store, q: Option<string>): (r: SearchResponse)
    ensures r.Failed? <==> Compile(cat, PlacementsTable, SearchColumnsAsWritten).Some?
  {
    match Compile(cat, PlacementsTable, SearchColumnsAsWritten)
    case Some(e) => Failed(e)
    case None => Results(SearchPlacements(st, q))
  }

  /** The columns the corrected query reads: `role AS title`. */
  const SearchColumns: seq<Column> := [Id, RoleCol, Company, Description]

  /** The search text, stripped and lower-cased. */
  function SearchQuery(q: Option<string>): string {
    Lower(Strip(q.GetOr("")))
  }

  /** `lower(title) LIKE %q% OR lower(company) LIKE %q% OR lower(description) LIKE %q%`. */
  predicate MatchesQuery(p: Placement, query: string) {
    || Contains(Lower(p.role), query)
    || Contains(Lower(p.company), query)
    || (p.description.Some? && Contains(Lower(p.description.value), query))
  }

  /** A placement as one entry of the JSON results. */
  function ToResult(p: Placement): SearchResult {
    SearchResult(p.id, p.role, p.company, Snippet(p.description))
  }

  /** The rows of the corrected query, in table order, filtered when the query is non-empty. */
  function SelectMatching(ps: seq<Placement>, query: string): (r: seq<SearchResult>)
    ensures |r| <= |ps|
    ensures query == "" ==> |r| == |ps|
    decreases |ps|
  {
    if |ps| == 0 then []
    else
      var rest := SelectMatching(ps[1..], query);
      if query == "" || MatchesQuery(ps[0], query) then [ToResult(ps[0])] + rest else rest
  }

  /** The results of the corrected `api_search_placements` on the placements of `st`. */
  function SearchPlacements(st: Store, q: Option<string>): (r: seq<SearchResult>)
    ensures |r| <= |st.placements|
  {
    SelectMatching(st.placements, SearchQuery(q))
  }

  /** The corrected endpoint: the query reads `role AS title`, and answers once it compiles. */
  function Search(cat: Catalog, st: Store, q: Option<string>): (r: SearchResponse)
    ensures r.Failed? <==> Compile(cat, PlacementsTable, SearchColumns).Some?
  {
    match Compile(cat, PlacementsTable, SearchColumns)
    case Some(e) => Failed(e)
    case None => Results(SearchPlacements(st, q))
  }
}

=== FILE: routes_properties.dfy ===
/**
 * The state-machine view of the routes: the invariant the schema's constraints and the
 * route guards keep together, and the properties each route promises beyond one call.
 */
module RoutesProperties {
  import opened Base
  import opened Text
  import opened Schema
  import opened SchemaProperties
  import opened Uploads
  import opened Routes

  /** At most one application per (user, placement) pair. */
  ghost predicate OnePerPair(apps: seq<Application>) {
    forall i, j :: 0 <= i < j < |apps| ==>
      apps[i].userId != apps[j].userId || apps[i].placementId != apps[j].placementId
  }

  /** User ids are distinct and below the table's AUTOINCREMENT sequence. */
  ghost predicate UserIdsFresh(users: seq<User>, next: nat) {
    && (forall i :: 0 <= i < |users| ==> users[i].id < next)
    && (forall i, j :: 0 <= i < j < |users| ==> users[i].id != users[j].id)
  }

  /** Application ids are distinct and below the table's AUTOINCREMENT sequence. */
  ghost predicate ApplicationIdsFresh(apps: seq<Application>, next: nat) {
    && (forall i :: 0 <= i < |apps| ==> apps[i].id < next)
    && (forall i, j :: 0 <= i < j < |apps| ==> apps[i].id != apps[j].id)
  }

  /** Placement ids are distinct and below the table's AUTOINCREMENT sequence. */
  ghost predicate PlacementIdsFresh(ps: seq<Placement>, next: nat) {
    && (forall i :: 0 <= i < |ps| ==> ps[i].id < next)
    && (forall i, j :: 0 <= i < j < |ps| ==> ps[i].id != ps[j].id)
  }

  /** Resume ids are distinct and below the table's AUTOINCREMENT sequence. */
  ghost predicate ResumeIdsFresh(rs: seq<Resume>, next: nat) {
    && (forall i :: 0 <= i < |rs| ==> rs[i].id < next)
    && (forall i, j :: 0 <= i < j < |rs| ==> rs[i].id != rs[j].id)
  }

  /** Feedback ids are distinct and below the table's AUTOINCREMENT sequence. */
  ghost predicate FeedbackIdsFresh(fs: seq<Feedback>, next: nat) {
    && (forall i :: 0 <= i < |fs| ==> fs[i].id < next)
    && (forall i, j :: 0 <= i < j < |fs| ==> fs[i].id != fs[j].id)
  }

  /** Every stored rating lies in 1..5. */
  ghost predicate RatingsInRange(feedback: seq<Feedback>) {
    forall i :: 0 <= i < |feedback| ==> 1 <= feedback[i].rating <= 5
  }

  /**
   * The invariant of the store: the UNIQUE constraints, the apply guard, the rating guard,
   * and AUTOINCREMENT ids (distinct, below the sequence) in every table the model holds.
   */
  ghost predicate Valid(st: Store) {
    && UniqueAccounts(st.users)
    && UserIdsFresh(st.users, st.nextUser)
    && PlacementIdsFresh(st.placements, st.nextPlacement)
    && OnePerPair(st.applications)
    && ApplicationIdsFresh(st.applications, st.nextApplication)
    && ResumeIdsFresh(st.resumes, st.nextResume)
    && FeedbackIdsFresh(st.feedback, st.nextFeedback)
    && RatingsInRange(st.feedback)
  }

  /** An empty store is valid, whatever its sequences stand at. */
  lemma EmptyStoreValid(st: Store)
    requires st.users == [] && st.placements == [] && st.applications == [] && st.resumes == [] && st.feedback == []
    ensures Valid(st)
  {
  }

  /** `init_db` keeps the store valid: it only seeds `placements`. */
  lemma InitDbKeepsValid(db: Db)
    requires Valid(db.store)
    ensures Valid(InitDb(db).store)
  {
    var st := db.store;
    var r := InitDb(db).store;
    SeedKeepsPlacementIds(st);
    assert r.users == st.users && r.nextUser == st.nextUser;
    assert r.applications == st.applications && r.nextApplication == st.nextApplication;
    assert r.resumes == st.resumes && r.nextResume == st.nextResume;
    assert r.feedback == st.feedback && r.nextFeedback == st.nextFeedback;
  }

  /** The seed rows take consecutive fresh ids, so placement ids stay distinct and below the sequence. */
  lemma SeedKeepsPlacementIds(st: Store)
    requires PlacementIdsFresh(st.placements, st.nextPlacement)
    ensures PlacementIdsFresh(SeedIfEmpty(st).placements, SeedIfEmpty(st).nextPlacement)
  {
    var r := SeedIfEmpty(st);
    if |st.placements| == 0 {
      assert forall i :: 0 <= i < |r.placements| ==> r.placements[i].id == st.nextPlacement + i;
    }
  }

  lemma RegisterKeepsValid(st: Store, form: RegisterForm, hashed: string)
    requires Valid(st)
    ensures Valid(Register(st, form, hashed).store)
  {
    var r := Register(st, form, hashed);
    if r.outcome.Registered? {
      var users := r.store.users;
      var n := |st.users|;
      var u := users[n];
      assert !UsernameTaken(st.users, u.username) && !EmailTaken(st.users, u.email);
      forall i, j | 0 <= i < j < |users|
        ensures users[i].username != users[j].username && users[i].email != users[j].email
        ensures users[i].id != users[j].id
      {
        assert users[i] == st.users[i];
        if j < n {
          assert users[j] == st.users[j];
        }
      }
      assert UniqueAccounts(users);
      assert UserIdsFresh(users, r.store.nextUser);
      assert r.store.applications == st.applications && r.store.feedback == st.feedback;
    }
  }

  lemma ApplyKeepsValid(st: Store, session: Option<int>, pid: int)
    requires Valid(st)
    ensures Valid(Apply(st, session, pid).store)
  {
    var r := Apply(st, session, pid);
    if r.outcome.Submitted? {
      var apps := r.store.applications;
      forall i | 0 <= i < |st.applications|
        ensures apps[i].userId != session.value || apps[i].placementId != pid
      {
        assert !HasApplied(st.applications, session.value, pid);
        assert apps[i] == st.applications[i];
      }
    }
  }

  /** Applying twice leaves exactly the store the first application left. */
  lemma ApplyTwiceOnce(st: Store, user: int, pid: int)
    ensures var first := Apply(st, Some(user), pid);
            && first.outcome != LoginRequired
            && Apply(first.store, Some(user), pid) == Step(AlreadyApplied, first.store)
  {
    var first := Apply(st, Some(user), pid);
    if first.outcome.Submitted? {
      var n := |st.applications|;
      assert first.store.applications[n].userId == user && first.store.applications[n].placementId == pid;
    }
  }

  /** In a valid store, each (user, placement) pair has at most one application record. */
  lemma AtMostOneApplication(st: Store, user: int, pid: int, i: int, j: int)
    requires Valid(st)
    requires 0 <= i < |st.applications| && 0 <= j < |st.applications|
    requires st.applications[i].userId == user && st.applications[i].placementId == pid
    requires st.applications[j].userId == user && st.applications[j].placementId == pid
    ensures i == j
  {
  }

  lemma UpdateStatusKeepsValid(st: Store, status: Option<string>, appId: int)
    requires Valid(st)
    ensures Valid(UpdateStatus(st, status, appId).store)
  {
    var r := UpdateStatus(st, status, appId);
    var apps := r.store.applications;
    forall i | 0 <= i < |apps|
      ensures apps[i].id == st.applications[i].id
      ensures apps[i].userId == st.applications[i].userId
      ensures apps[i].placementId == st.applications[i].placementId
    {
    }
  }

  /** Setting a status a second time changes nothing more. */
  lemma UpdateStatusIdempotent(st: Store, status: Option<string>, appId: int)
    ensures var once := UpdateStatus(st, status, appId).store;
            UpdateStatus(once, status, appId).store == once
  {
    var once := UpdateStatus(st, status, appId).store;
    var twice := UpdateStatus(once, status, appId).store;
    assert twice.applications == once.applications;
  }

  /** After a valid status update, the application with that id reads back the new status. */
  lemma UpdateStatusReadBack(st: Store, name: string, appId: int, i: int)
    requires 0 <= i < |st.applications| && st.applications[i].id == appId
    requires ParseStatus(name).Some?
    ensures UpdateStatus(st, Some(name), appId).store.applications[i].status == ParseStatus(name).value
    ensures StatusName(UpdateStatus(st, Some(name), appId).store.applications[i].status) == name
  {
  }

  lemma RateKeepsValid(st: Store, session: Option<int>, rating: IntField, comment: Option<string>)
    requires Valid(st)
    ensures Valid(Rate(st, session, rating, comment).store)
  {
    var r := Rate(st, session, rating, comment);
    if r.outcome.Thanks? {
      var fs := r.store.feedback;
      FeedbackAppendFresh(st.feedback, st.nextFeedback, fs[|st.feedback|]);
      assert fs == st.feedback + [fs[|st.feedback|]];
      assert r.store.(feedback := st.feedback, nextFeedback := st.nextFeedback) == st;
    }
  }

  /** A row inserted with the sequence's next id keeps the feedback ids fresh. */
  lemma FeedbackAppendFresh(fs: seq<Feedback>, next: nat, row: Feedback)
    requires FeedbackIdsFresh(fs, next) && row.id == next
    ensures FeedbackIdsFresh(fs + [row], next + 1)
  {
  }

  lemma ResumeReviewKeepsValid(st: Store, session: Option<int>, upload: Option<string>, secure: string -> string,
                               folder: string, stamp: string, analysis: Analysis)
    requires Valid(st)
    ensures Valid(ResumeReview(st, session, upload, secure, folder, stamp, analysis).store)
  {
    var r := ResumeReview(st, session, upload, secure, folder, stamp, analysis);
    if r.outcome.Reviewed? {
      var rs := r.store.resumes;
      ResumeAppendFresh(st.resumes, st.nextResume, rs[|st.resumes|]);
      assert rs == st.resumes + [rs[|st.resumes|]];
      assert r.store.(resumes := st.resumes, nextResume := st.nextResume) == st;
    }
  }

  /** A row inserted with the sequence's next id keeps the resume ids fresh. */
  lemma ResumeAppendFresh(rs: seq<Resume>, next: nat, row: Resume)
    requires ResumeIdsFresh(rs, next) && row.id == next
    ensures ResumeIdsFresh(rs + [row], next + 1)
  {
  }

  lemma UpdateProfileKeepsValid(st: Store, session: Option<int>, form: ProfileForm,
                                pic: Option<string>, resume: Option<string>, secure: string -> string)
    requires Valid(st)
    ensures Valid(UpdateProfile(st, session, form, pic, resume, secure).store)
  {
    var r := UpdateProfile(st, session, form, pic, resume, secure);
    if r.outcome == ProfileUpdated {
      EditUsersKeepsAccounts(st.users, st.nextUser, session.value, form,
                             StoredName(pic, secure), StoredName(resume, secure));
    }
  }

  /** No user row names an empty file as its picture or resume. */
  ghost predicate NoEmptyFileNames(users: seq<User>) {
    forall i :: 0 <= i < |users| ==> users[i].profilePic != Some("") && users[i].resume != Some("")
  }

  /**
   * A profile update never records an empty filename: an upload whose secured name is empty
   * fails the request before the UPDATE, so only real names or the old values are stored.
   */
  lemma {:induction false} ProfileStoresNoEmptyName(st: Store, session: Option<int>, form: ProfileForm,
                                                   pic: Option<string>, resume: Option<string>, secure: string -> string)
    requires NoEmptyFileNames(st.users)
    ensures NoEmptyFileNames(UpdateProfile(st, session, form, pic, resume, secure).store.users)
  {
    var r := UpdateProfile(st, session, form, pic, resume, secure);
    if r.outcome == ProfileUpdated {
      var p, q := StoredName(pic, secure), StoredName(resume, secure);
      var edited := r.store.users;
      forall i | 0 <= i < |edited|
        ensures edited[i].profilePic != Some("") && edited[i].resume != Some("")
      {
        if st.users[i].id == session.value {
          assert edited[i] == Edited(st.users[i], form, p, q);
        } else {
          assert edited[i] == st.users[i];
        }
      }
    }
  }

  /** An upload whose secured name is empty, such as "...", fails the request and leaves the store alone. */
  lemma EmptySecureNameFails(st: Store, id: int, form: ProfileForm, name: string, secure: string -> string)
    requires name != "" && secure(name) == ""
    ensures var r := UpdateProfile(st, Some(id), form, Some(name), None, secure);
            r.outcome == ProfileSaveFailed(PictureField) && r.store == st
  {
  }

  /** The UPDATE keeps the accounts unique when nobody else holds the new username or email. */
  lemma EditUsersKeepsAccounts(users: seq<User>, next: nat, id: int, form: ProfileForm,
                               pic: Option<string>, resume: Option<string>)
    requires UniqueAccounts(users) && UserIdsFresh(users, next)
    requires HasUser(users, id) ==>
               !ClashesWithOther(users, id, Strip(form.username.GetOr("")), Strip(form.email.GetOr("")))
    ensures UniqueAccounts(EditUsers(users, id, form, pic, resume))
    ensures UserIdsFresh(EditUsers(users, id, form, pic, resume), next)
  {
    var edited := EditUsers(users, id, form, pic, resume);
    forall i, j | 0 <= i < j < |edited|
      ensures edited[i].username != edited[j].username && edited[i].email != edited[j].email
    {
      EditedPairDistinct(users, next, id, form, pic, resume, i, j);
    }
    assert forall i :: 0 <= i < |edited| ==> edited[i].id == users[i].id;
  }

  /** Two rows stay apart: at most one of them is the edited one, and it takes no name another row holds. */
  lemma EditedPairDistinct(users: seq<User>, next: nat, id: int, form: ProfileForm,
                           pic: Option<string>, resume: Option<string>, i: int, j: int)
    requires UniqueAccounts(users) && UserIdsFresh(users, next)
    requires HasUser(users, id) ==>
               !ClashesWithOther(users, id, Strip(form.username.GetOr("")), Strip(form.email.GetOr("")))
    requires 0 <= i < j < |users|
    ensures var edited := EditUsers(users, id, form, pic, resume);
            edited[i].username != edited[j].username && edited[i].email != edited[j].email
  {
    var edited := EditUsers(users, id, form, pic, resume);
    if users[i].id == id {
      assert HasUser(users, id);
      assert users[j].id != id;
      assert edited[j] == users[j];
    } else if users[j].id == id {
      assert HasUser(users, id);
      assert edited[i] == users[i];
    } else {
      assert edited[i] == users[i] && edited[j] == users[j];
    }
  }

  /** Registering the same username again is refused: the first registration took it. */
  lemma RegisterTwiceRefused(st: Store, form: RegisterForm, hashed: string, again: string)
    requires Register(st, form, hashed).outcome.Registered?
    ensures Register(Register(st, form, hashed).store, form, again).outcome == AlreadyExists
  {
    var r := Register(st, form, hashed);
    var n := |st.users|;
    assert r.store.users[n].username == Strip(form.username.GetOr(""));
    assert UsernameTaken(r.store.users, Strip(form.username.GetOr("")));
  }

  /**
   * Without a new picture or resume, the session user's stored picture and resume survive
   * a profile update; the four text fields are overwritten with the stripped form values.
   */
  lemma ProfileKeepsFilesWithoutUpload(st: Store, id: int, form: ProfileForm, secure: string -> string, i: int)
    requires 0 <= i < |st.users| && st.users[i].id == id
    requires UpdateProfile(st, Some(id), form, None, None, secure).outcome == ProfileUpdated
    ensures var u := UpdateProfile(st, Some(id), form, None, None, secure).store.users[i];
            && u.profilePic == st.users[i].profilePic && u.resume == st.users[i].resume
            && u.username == Strip(form.username.GetOr("")) && u.email == Strip(form.email.GetOr(""))
            && u.phone == Some(Strip(form.phone.GetOr(""))) && u.skills == Some(Strip(form.skills.GetOr("")))
  {
  }

  /** A stored description is shown whole, before the "...", exactly when it has at most 120 characters. */
  lemma SnippetWholeIff(d: string)
    requires d != ""
    ensures Snippet(Some(d)) == d + Ellipsis <==> |d| <= SnippetLength
  {
    var r := Snippet(Some(d));
    if r == d + Ellipsis {
      assert |r| == |d| + 3;
    }
  }

  /** Every result of the corrected search comes from a placement the query matches. */
  lemma {:induction false} SelectMatchingSound(ps: seq<Placement>, query: string, k: int)
    requires 0 <= k < |SelectMatching(ps, query)|
    ensures exists j :: 0 <= j < |ps| && SelectMatching(ps, query)[k] == ToResult(ps[j])
                        && (query == "" || MatchesQuery(ps[j], query))
    decreases |ps|
  {
    var rest := SelectMatching(ps[1..], query);
    var r := SelectMatching(ps, query);
    var keep := query == "" || MatchesQuery(ps[0], query);
    if keep && k == 0 {
      assert r[0] == ToResult(ps[0]);
    } else {
      var k' := if keep then k - 1 else k;
      assert r[k] == rest[k'];
      SelectMatchingSound(ps[1..], query, k');
      var j :| 0 <= j < |ps[1..]| && rest[k'] == ToResult(ps[1..][j]) && (query == "" || MatchesQuery(ps[1..][j], query));
      assert ps[1..][j] == ps[j + 1];
    }
  }

  /** Every placement the query matches appears among the results of the corrected search. */
  lemma {:induction false} SelectMatchingComplete(ps: seq<Placement>, query: string, j: int)
    requires 0 <= j < |ps| && (query == "" || MatchesQuery(ps[j], query))
    ensures ToResult(ps[j]) in SelectMatching(ps, query)
    decreases |ps|
  {
    if j > 0 {
      SelectMatchingComplete(ps[1..], query, j - 1);
      assert ps[1..][j - 1] == ps[j];
    }
  }

  /** With an empty query the corrected search lists every placement, in table order. */
  lemma {:induction false} EmptyQueryListsAll(ps: seq<Placement>)
    ensures SelectMatching(ps, "") == seq(|ps|, i requires 0 <= i < |ps| => ToResult(ps[i]))
    decreases |ps|
  {
    if |ps| > 0 {
      EmptyQueryListsAll(ps[1..]);
    }
  }

  /** `init_db` on a database without the table gives it the script's columns. */
  lemma FreshTableColumns(cat: Catalog, t: Table)
    requires t !in cat && t in ScriptTables
    ensures forall c :: c in DeclaredColumns(t) ==> c in InitCatalog(cat)[t]
  {
    InitCatalogExtends(cat, t);
    PrefixMembers(DeclaredColumns(t), InitCatalog(cat)[t]);
  }

  lemma PrefixMembers(a: seq<Column>, b: seq<Column>)
    requires a <= b
    ensures forall x :: x in a ==> x in b
  {
    forall x | x in a
      ensures x in b
    {
      var i :| 0 <= i < |a| && a[i] == x;
      assert b[i] == x;
    }
  }

  /**
   * The endpoint as written fails on every database `init_db` prepares from one whose
   * `placements` table, if any, has no `title` column: the column does not exist.
   */
  lemma SearchAsWrittenAlwaysFails(cat: Catalog, st: Store, q: Option<string>)
    requires PlacementsTable in cat ==> TitleColumn !in cat[PlacementsTable]
    ensures SearchAsWritten(InitCatalog(cat), st, q).Failed?
  {
    PlacementsAfterInit(cat);
    NoTitleDeclared();
    assert TitleColumn !in InitCatalog(cat)[PlacementsTable];
    assert TitleColumn in SearchColumnsAsWritten;
  }

  lemma NoTitleDeclared()
    ensures TitleColumn !in DeclaredColumns(PlacementsTable)
    ensures TitleColumn !in PlacementExtras
  {
  }

  /**
   * The corrected endpoint answers on every database `init_db` prepares from one whose
   * `placements` table, if any, has the four columns it reads.
   */
  lemma SearchAnswersAfterInit(db: Db, q: Option<string>)
    requires PlacementsTable in db.catalog ==> forall c :: c in SearchColumns ==> c in db.catalog[PlacementsTable]
    ensures Search(InitDb(db).catalog, InitDb(db).store, q) == Results(SearchPlacements(InitDb(db).store, q))
  {
    var cat := InitDb(db).catalog;
    if PlacementsTable in db.catalog {
      InitCatalogKeepsTable(db.catalog, PlacementsTable);
    } else {
      FreshTableColumns(db.catalog, PlacementsTable);
    }
  }
}

=== FILE: schema.dfy ===
/**
 * The SQLite schema of `enhancements/db.py`: the domain types its CHECK constraints define,
 * the records of the tables the routes touch, and `init_db` as a function on an abstract
 * database (a table -> column-list catalogue plus the rows).
 */
module Schema {
  import opened Base

  /** `users.role`: CHECK(role IN ('student','admin')), default 'student'. */
  datatype Role = Student | Admin

  /** `applications.status`: CHECK(status IN (...)), default 'Applied'. */
  datatype Status = Applied | Shortlisted | Selected | Rejected

  function RoleName(r: Role): string {
    match r
    case Student => "student"
    case Admin => "admin"
  }

  /** The CHECK on `users.role`: the role strings the table accepts. */
  function ParseRole(s: string): (r: Option<Role>)
    ensures r.Some? <==> s == "student" || s == "admin"
    ensures r.Some? ==> RoleName(r.value) == s
  {
    if s == "student" then Some(Student)
    else if s == "admin" then Some(Admin)
    else None
  }

  function StatusName(st: Status): string {
    match st
    case Applied => "Applied"
    case Shortlisted => "Shortlisted"
    case Selected => "Selected"
    case Rejected => "Rejected"
  }

  /** The CHECK on `applications.status`: exactly the four status names, case-sensitive. */
  function ParseStatus(s: string): (r: Option<Status>)
    ensures r.Some? <==> s in ["Applied", "Shortlisted", "Selected", "Rejected"]
    ensures r.Some? ==> StatusName(r.value) == s
  {
    if s == "Applied" then Some(Applied)
    else if s == "Shortlisted" then Some(Shortlisted)
    else if s == "Selected" then Some(Selected)
    else if s == "Rejected" then Some(Rejected)
    else None
  }

  /** Every role and every status is stored under a name its CHECK constraint reads back. */
  lemma EnumNamesRoundTrip(r: Role, st: Status)
    ensures ParseRole(RoleName(r)) == Some(r)
    ensures ParseStatus(StatusName(st)) == Some(st)
  {
  }

  /** A `users` row, with the columns `init_db` adds (NULL until set). */
  datatype User = User(
    id: nat, username: string, email: string, password: string, role: Role,
    phone: Option<string>, skills: Option<string>, profilePic: Option<string>, resume: Option<string>)

  /** A `placements` row, with the `eligibility` and `deadline` columns `init_db` adds. */
  datatype Placement = Placement(
    id: nat, company: string, role: string, location: string,
    description: Option<string>, link: Option<string>,
    eligibility: Option<string>, deadline: Option<string>)

  /** An `applications` row; the foreign keys are not enforced, so the ids are plain ints. */
  datatype Application = Application(id: nat, userId: int, placementId: int, status: Status)

  /** A `resumes` row; `user_id` is nullable. */
  datatype Resume = Resume(
    id: nat, userId: Option<int>, filename: string, storagePath: string,
    verdict: Option<string>, details: string)

  /** A `feedback` row. */
  datatype Feedback = Feedback(id: nat, userId: int, rating: int, comment: string)

  /**
   * The rows of the tables the model touches. Each `next...` is the AUTOINCREMENT sequence
   * of its table: the id the next insert receives.
   */
  datatype Store = Store(
    users: seq<User>, placements: seq<Placement>, applications: seq<Application>,
    resumes: seq<Resume>, feedback: seq<Feedback>,
    nextUser: nat, nextPlacement: nat, nextApplication: nat, nextResume: nat, nextFeedback: nat)

  /** `users.username` and `users.email` are each UNIQUE. */
  ghost predicate UniqueAccounts(users: seq<User>) {
    forall i, j :: 0 <= i < j < |users| ==>
      users[i].username != users[j].username && users[i].email != users[j].email
  }

  /** The tables `init_db` creates; any other table a database may hold is `OtherTable`. */
  datatype Table =
    | UsersTable | PlacementsTable | ResumesTable | ApplicationsTable
    | ChatLogsTable | QuizAttemptsTable | FeedbackTable
    | OtherTable(tableName: string)

  /**
   * The column names the script declares or adds; any other name is `OtherColumn`. A name
   * the script uses is always written with its own constructor.
   */
  datatype Column =
    | Id | Username | Email | Password | RoleCol | CreatedAt
    | Company | Location | Description | Link
    | UserId | Filename | StoragePath | Verdict | Details | UploadedAt
    | PlacementId | StatusCol | AppliedAt
    | Message | QuizName | Category | Score | Total | Rating | Comment
    | Phone | Skills | ProfilePic | ResumeCol | Eligibility | Deadline
    | OtherColumn(columnName: string)

  /** Table -> column names, in declaration order (ALTER TABLE ADD COLUMN appends). */
  type Catalog = map<Table, seq<Column>>

  /** The tables of the CREATE TABLE IF NOT EXISTS script, in script order. */
  const ScriptTables: seq<Table> :=
    [UsersTable, PlacementsTable, ResumesTable, ApplicationsTable, ChatLogsTable, QuizAttemptsTable, FeedbackTable]

  /** The columns the script declares for each of its tables. */
  function DeclaredColumns(t: Table): seq<Column> {
    match t
    case UsersTable => [Id, Username, Email, Password, RoleCol, CreatedAt]
    case PlacementsTable => [Id, Company, RoleCol, Location, Description, Link, CreatedAt]
    case ResumesTable => [Id, UserId, Filename, StoragePath, Verdict, Details, UploadedAt]
    case ApplicationsTable => [Id, UserId, PlacementId, StatusCol, AppliedAt]
    case ChatLogsTable => [Id, UserId, RoleCol, Message, CreatedAt]
    case QuizAttemptsTable => [Id, UserId, QuizName, Category, Score, Total, Details, CreatedAt]
    case FeedbackTable => [Id, UserId, Rating, Comment, CreatedAt]
    case OtherTable(_) => []
  }

  /** Columns `init_db` adds to `users` and to `placements` when absent. */
  const UserExtras: seq<Column> := [Phone, Skills, ProfilePic, ResumeCol]
  const PlacementExtras: seq<Column> := [Eligibility, Deadline]

  /**
   * CREATE TABLE IF NOT EXISTS for each of `tables` in turn: the missing ones appear with
   * their declared columns, the existing ones are left alone.
   */
  function CreateTables(cat: Catalog, tables: seq<Table>): (r: Catalog)
    ensures forall t :: t in r <==> t in cat || t in tables
    ensures forall t :: t in cat ==> r[t] == cat[t]
    ensures forall t :: t in r && t !in cat ==> r[t] == DeclaredColumns(t)
    decreases |tables|
  {
    if |tables| == 0 then cat
    else
      var t := tables[0];
      var c := if t in cat then cat else cat[t := DeclaredColumns(t)];
      CreateTables(c, tables[1..])
  }

  /** "if col not in existing_columns: ALTER TABLE ... ADD COLUMN col", for each wanted column. */
  function EnsureColumns(cols: seq<Column>, wanted: seq<Column>): (r: seq<Column>)
    ensures cols <= r
    ensures forall c :: c in r <==> c in cols || c in wanted
    ensures (forall c :: c in wanted ==> c in cols) ==> r == cols
    decreases |wanted|
  {
    if |wanted| == 0 then cols
    else
      var c := if wanted[0] in cols then cols else cols + [wanted[0]];
      EnsureColumns(c, wanted[1..])
  }

  /** One column pass of `init_db` over table `t`: it touches no other table. */
  function AddColumns(cat: Catalog, t: Table, wanted: seq<Column>): (r: Catalog)
    requires t in cat
    ensures r.Keys == cat.Keys
    ensures forall u :: u in cat && u != t ==> r[u] == cat[u]
    ensures forall u :: u in cat ==> cat[u] <= r[u]
    ensures forall c :: c in r[t] <==> c in cat[t] || c in wanted
    ensures (forall c :: c in wanted ==> c in cat[t]) ==> r == cat
  {
    var cols := EnsureColumns(cat[t], wanted);
    assert cols == cat[t] ==> cat[t := cols] == cat;
    cat[t := cols]
  }

  /**
   * The catalogue after the CREATE script and the two column passes of `init_db`: exactly
   * the existing tables and the script's tables, with only `users` and `placements` changed,
   * and those holding the ensured columns.
   */
  function InitCatalog(cat: Catalog): (r: Catalog)
    ensures forall t :: t in r <==> t in cat || t in ScriptTables
    ensures forall t :: t in cat && t != UsersTable && t != PlacementsTable ==> r[t] == cat[t]
    ensures UsersTable in r && forall c :: c in UserExtras ==> c in r[UsersTable]
    ensures PlacementsTable in r && forall c :: c in PlacementExtras ==> c in r[PlacementsTable]
  {
    var c := CreateTables(cat, ScriptTables);
    var c1 := AddColumns(c, UsersTable, UserExtras);
    AddColumns(c1, PlacementsTable, PlacementExtras)
  }

  /** One row of the seed INSERT. */
  datatype SeedRow = SeedRow(
    company: string, role: string, location: string, description: string,
    link: string, eligibility: string, deadline: string)

  /** Row `i` of the seed INSERT, in statement order. */
  function SeedRowAt(i: nat): SeedRow
    requires i < SeedCount
  {
    if i == 0 then SeedRow("Google", "Software Engineer", "Bangalore", "Work on scalable systems and new features for global products.", "https://careers.google.com", "B.Tech/B.E in CS", "2025-12-31")
    else if i == 1 then SeedRow("TCS", "System Analyst", "Mumbai", "Client projects and solutions in business systems.", "https://www.tcs.com", "Any Graduate", "2025-12-31")
    else if i == 2 then SeedRow("Infosys", "Java Developer", "Hyderabad", "Backend application development for enterprise clients.", "https://www.infosys.com", "B.Tech/B.E in IT", "2025-12-31")
    else if i == 3 then SeedRow("Amazon", "Data Engineer", "Chennai", "Build and optimize data pipelines and analytics systems.", "https://www.amazon.jobs", "B.Tech/B.E in CS or Data Science", "2025-11-30")
    else if i == 4 then SeedRow("Microsoft", "Cloud Support Engineer", "Pune", "Support Azure customers with cloud deployments and troubleshooting.", "https://careers.microsoft.com", "B.Tech/B.E in CS/IT/ECE", "2025-12-15")
    else if i == 5 then SeedRow("Wipro", "Cybersecurity Analyst", "Noida", "Monitor and protect enterprise infrastructure against threats.", "https://careers.wipro.com", "B.Tech/B.E in CS/IT", "2025-12-20")
    else if i == 6 then SeedRow("Accenture", "AI Research Intern", "Gurgaon", "Work on AI-driven automation and NLP models.", "https://www.accenture.com", "B.Tech/B.E/M.Tech in CS or AI", "2025-11-25")
    else if i == 7 then SeedRow("IBM", "Software Developer", "Pune", "Develop and maintain enterprise-grade software solutions.", "https://www.ibm.com/careers", "B.Tech/B.E in CS/IT", "2025-12-10")
    else if i == 8 then SeedRow("Deloitte", "Business Technology Analyst", "Bangalore", "Support consulting projects using data analytics and business tech.", "https://www.deloitte.com", "B.Tech/B.E/MBA", "2025-12-05")
    else if i == 9 then SeedRow("Capgemini", "DevOps Engineer", "Kolkata", "Automate deployments and CI/CD pipelines using modern tools.", "https://www.capgemini.com", "B.Tech/B.E in CS/IT", "2025-12-25")
    else if i == 10 then SeedRow("Flipkart", "Frontend Developer", "Bangalore", "Design responsive UI for e-commerce platform using React and JS.", "https://www.flipkartcareers.com", "B.Tech/B.E in CS/IT", "2025-12-18")
    else if i == 11 then SeedRow("Adobe", "UX Designer Intern", "Noida", "Design intuitive user experiences and prototypes for creative tools.", "https://adobe.wd5.myworkdayjobs.com", "B.Des/B.Tech with UI/UX experience", "2025-12-28")
    else if i == 12 then SeedRow("Swiggy", "Backend Developer", "Bangalore", "Work on order management and delivery optimization systems.", "https://careers.swiggy.com", "B.Tech/B.E in CS/IT", "2025-11-29")
    else if i == 13 then SeedRow("Paytm", "Mobile App Developer", "Noida", "Develop new features for the Paytm app ecosystem.", "https://paytm.com/careers", "B.Tech/B.E in CS/IT", "2025-12-22")
    else if i == 14 then SeedRow("ISRO", "Research Scientist", "Ahmedabad", "Work on satellite systems and data analysis.", "https://www.isro.gov.in", "M.Sc/M.Tech in Physics, CS, or Electronics", "2025-12-31")
    else SeedRow("Zomato", "Machine Learning Engineer", "Gurgaon", "Build recommendation and delivery optimization algorithms.", "https://www.zomato.com/careers", "B.Tech/B.E in CS or Data Science", "2025-12-12")
  }

  /** The seed INSERT adds this many rows. */
  const SeedCount: nat := 16

  /** A seed row as the `placements` row the INSERT creates, with id `id`. */
  function SeedPlacement(row: SeedRow, id: nat): Placement {
    Placement(id, row.company, row.role, row.location, Some(row.description), Some(row.link),
              Some(row.eligibility), Some(row.deadline))
  }

  /**
   * The seed rows as `placements` rows when the table's sequence stands at `firstId`: the
   * rows with ids `id` up to `firstId + SeedCount`, row `i` receiving id `firstId + i`.
   */
  function SeedPlacements(firstId: nat, id: nat): (r: seq<Placement>)
    requires firstId <= id <= firstId + SeedCount
    ensures |r| == firstId + SeedCount - id
    ensures forall i :: 0 <= i < |r| ==> r[i].id == id + i
    decreases firstId + SeedCount - id
  {
    if id == firstId + SeedCount then []
    else [SeedPlacement(SeedRowAt(id - firstId), id)] + SeedPlacements(firstId, id + 1)
  }

  /**
   * "if cnt == 0: INSERT the seed rows": an empty `placements` table receives the seed rows
   * with fresh ids; a non-empty one, and every other table, is left as it was.
   */
  function SeedIfEmpty(st: Store): (r: Store)
    ensures |st.placements| != 0 ==> r == st
    ensures |st.placements| == 0 ==>
              && |r.placements| == SeedCount
              && (forall i :: 0 <= i < SeedCount ==> r.placements[i].id == st.nextPlacement + i)
              && r.nextPlacement == st.nextPlacement + SeedCount
    ensures r.(placements := st.placements, nextPlacement := st.nextPlacement) == st
  {
    if |st.placements| == 0 then
      st.(placements := SeedPlacements(st.nextPlacement, st.nextPlacement),
          nextPlacement := st.nextPlacement + SeedCount)
    else st
  }

  /** A database: its catalogue and its rows. */
  datatype Db = Db(catalog: Catalog, store: Store)

  /** `init_db()`. */
  function InitDb(db: Db): (r: Db)
    ensures r.store.users == db.store.users && r.store.applications == db.store.applications
    ensures r.store.resumes == db.store.resumes && r.store.feedback == db.store.feedback
    ensures |r.store.placements| != 0
  {
    Db(InitCatalog(db.catalog), SeedIfEmpty(db.store))
  }
}

=== FILE: schema_properties.dfy ===
/** `init_db` run twice: the column passes and the seeding are idempotent. */
module SchemaProperties {
  import opened Base
  import opened Schema

  predicate NoDuplicates(xs: seq<Column>) {
    forall i, j :: 0 <= i < j < |xs| ==> xs[i] != xs[j]
  }

  /** A column pass never adds a column twice, so a duplicate-free table stays duplicate-free. */
  lemma {:induction false} EnsureColumnsNoDuplicates(cols: seq<Column>, wanted: seq<Column>)
    requires NoDuplicates(cols)
    ensures NoDuplicates(EnsureColumns(cols, wanted))
    decreases |wanted|
  {
    if |wanted| > 0 {
      var c := if wanted[0] in cols then cols else cols + [wanted[0]];
      assert NoDuplicates(c);
      EnsureColumnsNoDuplicates(c, wanted[1..]);
    }
  }

  /** CREATE TABLE IF NOT EXISTS changes nothing once every table exists. */
  lemma {:induction false} CreateTablesIdempotent(cat: Catalog, tables: seq<Table>)
    requires forall t :: t in tables ==> t in cat
    ensures CreateTables(cat, tables) == cat
    decreases |tables|
  {
    if |tables| > 0 {
      CreateTablesIdempotent(cat, tables[1..]);
    }
  }

  /**
   * Bootstrap never drops or reorders a column of an existing table: its old columns are a
   * prefix of its new ones.
   */
  lemma InitCatalogKeepsColumns(cat: Catalog)
    ensures forall t :: t in cat ==> cat[t] <= InitCatalog(cat)[t]
  {
    forall t | t in cat
      ensures cat[t] <= InitCatalog(cat)[t]
    {
      InitCatalogKeepsTable(cat, t);
    }
  }

  lemma InitCatalogKeepsTable(cat: Catalog, t: Table)
    requires t in cat
    ensures cat[t] <= InitCatalog(cat)[t]
  {
    var c := CreateTables(cat, ScriptTables);
    var c1 := AddColumns(c, UsersTable, UserExtras);
    PassesExtend(c, t);
    PrefixTransitive(cat[t], c1[t], InitCatalog(cat)[t]);
  }

  /** The two column passes keep every table of `c` as a prefix. */
  lemma PassesExtend(c: Catalog, t: Table)
    requires UsersTable in c && PlacementsTable in c && t in c
    ensures var c1 := AddColumns(c, UsersTable, UserExtras);
            c[t] <= c1[t] && c1[t] <= AddColumns(c1, PlacementsTable, PlacementExtras)[t]
  {
  }

  lemma PrefixTransitive(a: seq<Column>, b: seq<Column>, c: seq<Column>)
    requires a <= b && b <= c
    ensures a <= c
  {
  }

  /** Every table `init_db` creates or finds keeps its columns as a prefix of the result. */
  lemma InitCatalogExtends(cat: Catalog, t: Table)
    requires t !in cat && t in ScriptTables
    ensures DeclaredColumns(t) <= InitCatalog(cat)[t]
  {
    var c := CreateTables(cat, ScriptTables);
    var c1 := AddColumns(c, UsersTable, UserExtras);
    PassesExtend(c, t);
    PrefixTransitive(DeclaredColumns(t), c1[t], InitCatalog(cat)[t]);
  }

  /**
   * After `init_db` the `placements` columns are those the table had (or was created with)
   * and the two extras, and nothing else.
   */
  lemma PlacementsAfterInit(cat: Catalog)
    ensures PlacementsTable in InitCatalog(cat)
    ensures forall x :: x in InitCatalog(cat)[PlacementsTable] <==>
      x in (if PlacementsTable in cat then cat[PlacementsTable] else DeclaredColumns(PlacementsTable)) ||
      x in PlacementExtras
  {
    var c := CreateTables(cat, ScriptTables);
    if PlacementsTable in cat {
      assert c[PlacementsTable] == cat[PlacementsTable];
    } else {
      assert c[PlacementsTable] == DeclaredColumns(PlacementsTable);
    }
    var c1 := AddColumns(c, UsersTable, UserExtras);
    assert c1[PlacementsTable] == c[PlacementsTable];
  }

  /** The catalogue passes of a second `init_db` change nothing. */
  lemma InitCatalogIdempotent(cat: Catalog)
    ensures InitCatalog(InitCatalog(cat)) == InitCatalog(cat)
  {
    var c := InitCatalog(cat);
    CreateTablesIdempotent(c, ScriptTables);
    assert AddColumns(c, UsersTable, UserExtras) == c;
  }

  /** Running `init_db` a second time changes neither the catalogue nor the rows. */
  lemma InitDbIdempotent(db: Db)
    ensures InitDb(InitDb(db)) == InitDb(db)
  {
    InitCatalogIdempotent(db.catalog);
  }
}

=== FILE: text.dfy ===
/**
 * Character classes and the string helpers the portal relies on:
 * Python's `str.strip()`, `str.lower()`, slicing `s[:n]` and substring search.
 */
module Text {
  import opened Base

  predicate IsDigit(c: char) {
    '0' <= c <= '9'
  }

  predicate IsAsciiLetter(c: char) {
    ('a' <= c <= 'z') || ('A' <= c <= 'Z')
  }

  /** A regular-expression word character (`\w`), restricted to ASCII. */
  predicate IsWordChar(c: char) {
    IsAsciiLetter(c) || IsDigit(c) || c == '_'
  }

  /** The characters Python's `str.isspace()` accepts; `\s` and `strip()` use the same set. */
  predicate IsSpace(c: char) {
    || c == ' ' || c == '\t' || c == '\n' || c == '\r' || c == '\U{0B}' || c == '\U{0C}'
    || ('\U{1C}' <= c <= '\U{1F}')
    || c == '\U{85}' || c == '\U{A0}' || c == '\U{1680}'
    || ('\U{2000}' <= c <= '\U{200A}')
    || c == '\U{2028}' || c == '\U{2029}' || c == '\U{202F}' || c == '\U{205F}' || c == '\U{3000}'
  }

  function LowerChar(c: char): (r: char)
    ensures IsAsciiLetter(c) <==> IsAsciiLetter(r)
    ensures !('A' <= r <= 'Z')
    ensures 'a' <= c <= 'z' || !IsAsciiLetter(c) ==> r == c
  {
    if 'A' <= c <= 'Z' then (c as int - 'A' as int + 'a' as int) as char else c
  }

  /** `str.lower()` on ASCII letters; every other character is kept. */
  function Lower(s: string): (r: string)
    ensures |r| == |s|
    ensures forall i :: 0 <= i < |s| ==> r[i] == LowerChar(s[i])
  {
    seq(|s|, i requires 0 <= i < |s| => LowerChar(s[i]))
  }

  /** Python's `s.lstrip()`: drops the leading whitespace and nothing else. */
  function StripLeft(s: string): (r: string)
    ensures |r| <= |s| && r == s[|s| - |r|..]
    ensures forall k :: 0 <= k < |s| - |r| ==> IsSpace(s[k])
    ensures |r| > 0 ==> !IsSpace(r[0])
    decreases |s|
  {
    if |s| > 0 && IsSpace(s[0]) then StripLeft(s[1..]) else s
  }

  /** Python's `s.rstrip()`: drops the trailing whitespace and nothing else. */
  function StripRight(s: string): (r: string)
    ensures |r| <= |s| && r == s[..|r|]
    ensures forall k :: |r| <= k < |s| ==> IsSpace(s[k])
    ensures |r| > 0 ==> !IsSpace(r[|r| - 1])
    decreases |s|
  {
    if |s| > 0 && IsSpace(s[|s| - 1]) then StripRight(s[..|s| - 1]) else s
  }

  /** Python's `s.strip()`. */
  function Strip(s: string): (r: string)
    ensures |r| <= |s|
    ensures |r| > 0 ==> !IsSpace(r[0]) && !IsSpace(r[|r| - 1])
    ensures (forall k :: 0 <= k < |s| ==> IsSpace(s[k])) <==> r == ""
  {
    StripRight(StripLeft(s))
  }

  /** Python's slice `s[:n]` for `n >= 0`. */
  function Take<T>(s: seq<T>, n: nat): (r: seq<T>)
    ensures |r| == Min(n, |s|)
    ensures r <= s
  {
    if |s| <= n then s else s[..n]
  }

  /** `needle in hay` for strings: `needle` starts at some position of `hay`. */
  predicate Contains(hay: string, needle: string)
    decreases |hay|
  {
    needle <= hay || (|hay| > 0 && Contains(hay[1..], needle))
  }
}

=== FILE: uploads.dfy ===
/**
 * The upload whitelist of `enhancements/routes.py`: `allowed_file` looks at the extension
 * `os.path.splitext` reports for the name and accepts it, lower-cased, when it is one of
 * `ALLOWED_EXT`. Paths follow POSIX rules: `/` separates directories.
 */
module Uploads {
  import opened Text

  /** `ALLOWED_EXT`. */
  const AllowedExt: set<string> := {".pdf", ".docx", ".doc", ".txt"}

  /** `s.rfind(c)`: the index of the last `c` in `s`, or -1. */
  function RFind(s: string, c: char): (r: int)
    ensures -1 <= r < |s|
    ensures r >= 0 ==> s[r] == c
    ensures forall i :: r < i < |s| ==> s[i] != c
    decreases |s|
  {
    if |s| == 0 then -1
    else if s[|s| - 1] == c then |s| - 1
    else RFind(s[..|s| - 1], c)
  }

  /** Some character of `s[from..to]` is not a dot. */
  predicate HasNonDot(s: string, from: int, to: int)
    requires 0 <= from && to <= |s|
  {
    exists i :: from <= i < to && s[i] != '.'
  }

  /**
   * Where `posixpath.splitext(p)` cuts `p`: at the last dot, when that dot lies in the last
   * path component and something other than dots precedes it there; otherwise at the end.
   */
  function ExtStart(p: string): (k: nat)
    ensures k <= |p|
    ensures k < |p| ==> p[k] == '.'
    ensures forall i :: k < i < |p| ==> p[i] != '.' && p[i] != '/'
    ensures k < |p| ==> exists i :: 0 <= i < k && p[i] != '.' && forall j :: i < j < k ==> p[j] != '/'
  {
    var sep := RFind(p, '/');
    var dot := RFind(p, '.');
    if dot > sep && HasNonDot(p, sep + 1, dot) then dot else |p|
  }

  /**
   * `posixpath.splitext(p)`: root and extension put back together give `p`; the extension is
   * empty or a dot followed by neither dots nor slashes.
   */
  function SplitExt(p: string): (r: (string, string))
    ensures r.0 + r.1 == p
    ensures r.1 == "" || r.1[0] == '.'
    ensures forall i :: 0 < i < |r.1| ==> r.1[i] != '.' && r.1[i] != '/'
  {
    var k := ExtStart(p);
    assert p[..k] + p[k..] == p;
    (p[..k], p[k..])
  }

  /** `allowed_file(filename)`. */
  predicate AllowedFile(filename: string) {
    Lower(SplitExt(filename).1) in AllowedExt
  }

  /** `os.path.join(folder, name)` for two components: `name` ends the path, under `folder` unless absolute. */
  function Join(folder: string, name: string): (r: string)
    ensures |name| <= |r| && r[|r| - |name|..] == name
    ensures |name| == 0 || name[0] != '/' ==> folder <= r
  {
    if |name| > 0 && name[0] == '/' then name
    else if folder == "" || folder[|folder| - 1] == '/' then folder + name
    else folder + "/" + name
  }
}

=== FILE: uploads_properties.dfy ===
/** What `allowed_file` accepts, said without `splitext`, and its indifference to letter case. */
module UploadsProperties {
  import opened Text
  import opened Uploads

  /** Lower-casing keeps every character that is not an ASCII letter, and only those map to it. */
  lemma LowerCharKeeps(c: char, d: char)
    requires !IsAsciiLetter(d)
    ensures LowerChar(c) == d <==> c == d
  {
  }

  lemma LowerCharIdempotent(c: char)
    ensures LowerChar(LowerChar(c)) == LowerChar(c)
  {
  }

  /** Each allowed extension is a dot followed by at least one ASCII letter. */
  lemma AllowedExtShape(e: string)
    requires e in AllowedExt
    ensures |e| >= 2 && e[0] == '.'
    ensures forall i :: 1 <= i < |e| ==> IsAsciiLetter(e[i])
  {
  }

  /** No slash among the characters strictly between `j` and `k`. */
  predicate NoSlashBetween(f: string, j: int, k: int)
    requires 0 <= j && k <= |f|
  {
    forall m :: j < m < k ==> f[m] != '/'
  }

  /** A non-dot, non-slash character at `j` starts the last path component's stem before `k`. */
  predicate StemBefore(f: string, k: int)
    requires 0 <= k <= |f|
  {
    exists j :: 0 <= j < k && f[j] != '.' && f[j] != '/' && NoSlashBetween(f, j, k)
  }

  /**
   * The extension cut at `k` is the one `splitext` reports: its lower-cased text is allowed
   * and the last path component has a stem before it.
   */
  predicate AllowedSuffixAt(f: string, k: int) {
    0 < k < |f| && Lower(f[k..]) in AllowedExt && StemBefore(f, k)
  }

  lemma AllowedImpliesSuffix(f: string)
    requires AllowedFile(f)
    ensures AllowedSuffixAt(f, ExtStart(f))
  {
    var sep := RFind(f, '/');
    var dot := RFind(f, '.');
    var k := ExtStart(f);
    assert SplitExt(f).1 == f[k..];
    assert Lower(SplitExt(f).1) != "";
    assert k < |f|;
    assert k == dot && dot > sep && HasNonDot(f, sep + 1, dot);
    var i :| sep + 1 <= i < dot && f[i] != '.';
    assert NoSlashBetween(f, i, k);
  }

  lemma SuffixImpliesAllowed(f: string, k: int)
    requires AllowedSuffixAt(f, k)
    ensures AllowedFile(f) && ExtStart(f) == k
  {
    var e := Lower(f[k..]);
    AllowedExtShape(e);
    LowerCharKeeps(f[k], '.');
    assert f[k] == '.';
    forall i | k < i < |f|
      ensures IsAsciiLetter(f[i])
    {
      assert e[i - k] == LowerChar(f[i]);
    }
    var dot := RFind(f, '.');
    assert dot == k;
    var j :| 0 <= j < k && f[j] != '.' && f[j] != '/' && NoSlashBetween(f, j, k);
    var sep := RFind(f, '/');
    assert sep < j;
    assert HasNonDot(f, sep + 1, dot);
    assert SplitExt(f).1 == f[k..];
  }

  /**
   * `allowed_file(f)` holds exactly when `f` ends in `.pdf`, `.docx`, `.doc` or `.txt` in any
   * letter case, with something other than dots before it in the last path component.
   */
  lemma AllowedFileIff(f: string)
    ensures AllowedFile(f) <==> exists k :: AllowedSuffixAt(f, k)
  {
    if AllowedFile(f) {
      AllowedImpliesSuffix(f);
    }
    if k :| AllowedSuffixAt(f, k) {
      SuffixImpliesAllowed(f, k);
    }
  }

  lemma {:induction false} RFindLower(s: string, c: char)
    requires !IsAsciiLetter(c)
    ensures RFind(Lower(s), c) == RFind(s, c)
    decreases |s|
  {
    if |s| > 0 {
      LowerCharKeeps(s[|s| - 1], c);
      assert Lower(s)[..|s| - 1] == Lower(s[..|s| - 1]);
      RFindLower(s[..|s| - 1], c);
    }
  }

  /** `splitext` cuts a name and its lower-cased form at the same place. */
  lemma ExtStartLower(f: string)
    ensures ExtStart(Lower(f)) == ExtStart(f)
  {
    var g := Lower(f);
    RFindLower(f, '/');
    RFindLower(f, '.');
    var sep := RFind(f, '/');
    var dot := RFind(f, '.');
    if dot > sep {
      if HasNonDot(f, sep + 1, dot) {
        var i :| sep + 1 <= i < dot && f[i] != '.';
        LowerCharKeeps(f[i], '.');
        assert g[i] != '.';
      }
      if HasNonDot(g, sep + 1, dot) {
        var i :| sep + 1 <= i < dot && g[i] != '.';
        assert f[i] != '.';
      }
    }
  }

  lemma LowerIdempotent(s: string)
    ensures Lower(Lower(s)) == Lower(s)
  {
    forall i | 0 <= i < |s|
      ensures Lower(Lower(s))[i] == Lower(s)[i]
    {
      LowerCharIdempotent(s[i]);
    }
  }

  lemma LowerSuffix(s: string, k: nat)
    requires k <= |s|
    ensures Lower(s)[k..] == Lower(s[k..])
  {
  }

  /** `allowed_file` ignores letter case: a name and its lower-cased form are judged alike. */
  lemma AllowedFileIgnoresCase(f: string)
    ensures AllowedFile(Lower(f)) == AllowedFile(f)
  {
    var k := ExtStart(f);
    ExtStartLower(f);
    var g := Lower(f);
    assert SplitExt(g).1 == g[k..];
    assert SplitExt(f).1 == f[k..];
    LowerSuffix(f, k);
    LowerIdempotent(f[k..]);
  }

  /** An upper-case extension is accepted. */
  lemma UpperCaseAccepted()
    ensures AllowedFile("CV.PDF")
  {
    var f := "CV.PDF";
    assert Lower(f[2..]) == ".pdf";
    assert NoSlashBetween(f, 0, 2);
    SuffixImpliesAllowed(f, 2);
  }

  /** A dot-file has no extension for `splitext`, so `.pdf` alone is refused. */
  lemma HiddenFileRefused()
    ensures !AllowedFile(".pdf")
  {
    var f := ".pdf";
    assert RFind(f, '/') == -1;
    assert f[0] == '.' && f[1] != '.' && f[2] != '.' && f[3] != '.';
    assert RFind(f, '.') == 0;
    assert ExtStart(f) == 4;
    assert SplitExt(f).1 == "";
  }
}
